=== FILE: README.md ===
# freddy query engine, modelled in Dafny

freddy queries and filters decoded JSON documents along dotted key paths.
This project models its engine, `freddy/query.py`, with the JSON codec
left out. It covers four parts:

- **`apply_criteria`.** The path is split on the configured delimiter, and
  `'*'` stands for the empty path. `find` consumes one segment at a time:
  - on an object it first scans every key for the delimiter (a clash),
    then looks the segment up (a bad path when the key is missing);
  - on an array it broadcasts the segment over the elements;
  - on a scalar it fails with a bad path.

  The result is classified as a composite (JSON-encoded) or a scalar
  (returned bare).
- **`create_filter`.** It is modelled literally, as the `reduce` of `lfunc`
  over a criteria list that `lfunc` pops while the fold is running over
  it. The shared list is threaded through every call. The fold's iterator
  is an index that re-reads the list's length before each step, as
  Python's list iterator does. From the literal model the clean meaning is
  proved for the usual shape, the one the repository's tests use: one truth per element of the
  array, each the equality test at the rest of the path. Some other
  shapes are covered as well: elements that are bare strings, numbers or
  nulls all get None and are all removed (`FilterOnScalarsEmpties`). For
  a path through a second array, the model works out the mask of two
  concrete documents (`NestedMask`, `Nested2Mask`).
- **`apply_filter`.** `root_list` re-walks the path and records a list each
  time a segment is consumed while standing on one. The last recorded list
  is popped and the mask's length is asserted. `list.remove(item)` then
  runs for every pair of the zip whose truth is falsy.
- **`ResultFilter`.** `apply` and `filter_on` map the two query exceptions
  to their messages. Exceptions the facade does not catch are returned as
  `Raised`.

Modules, one per file:
- `Json` (json.dfy): the decoded value. Objects are sequences of key/value
  pairs with first-match lookup.
- `Paths` (path.dfy): `str.split` on one character, and its inverse.
- `Query` (query.dfy): `find` and `apply_criteria`.
- `Mask` (mask.dfy): `lfunc`, `reduce` and `create_filter`.
- `Applier` (applier.dfy): `root_list`, the removal loop and `apply_filter`.
- `Facade` (facade.dfy): `ResultFilter.apply` and `ResultFilter.filter_on`.
- `Scenarios` (scenarios.dfy): the documents and answers of the
  repository's tests, as lemmas.

Python is modelled as follows:
- The exceptions become result datatypes:
  - `Found` for `find`;
  - `Applied` and `Crash` for `apply_filter`'s `BadCriteriaError`,
    `IndexError`, `TypeError`, `AssertionError` and `ValueError`;
  - `Reply` for the facade.
- The in-place removal on the live document becomes a rebuilt document.
  `UpdateAt` writes the filtered array back at the keys the walk recorded.
- The zip is taken as a list built before the loop, as in Python 2, which
  the code is written for (`iteritems`, `unicode`, the builtin `reduce`).
  The loop therefore sees every original element, whatever `remove` does
  to the list.

Three behaviours of the code are easy to misread. The model follows the
code in each:
- **The array the filter targets.** It is not simply "the first array
  met". It is the first array reached with a segment still left. A path
  that ends exactly on an array records nothing, and `list_elements.pop()`
  raises `IndexError` (`FilterPathEndsAtList`).
- **How elements are dropped.** Elements go by `list.remove`, the first
  element equal to the item, not by position, and wherever the mask entry
  is falsy, not only where it is `False`. `RemoveLoopIsPositional` proves
  that this is positional filtering whenever equal elements carry equal
  entries. `MatchesConsistent` shows that this is always the case on the
  usual shape.
- **The delimiter in `filter_on`.** `create_filter` splits on `'.'`
  whatever delimiter the facade is configured with. `filter_on` never
  raises the delimiter clash, so its clash handler is unreachable.

## Model

| member | source | states |
|---|---|---|
| Json.IndexOf | freddy/query.py:75 | the position found holds the key and no earlier pair has it; None exactly when no pair has the key |
| Json.Lookup | freddy/query.py:75-77 | `jv[k]` succeeds exactly when some pair has key `k`, and returns a value stored under `k` |
| Paths.Split | freddy/query.py:64-65 | `str.split` gives at least one segment, no segment contains the delimiter, and joining the segments with the delimiter gives back the path |
| Paths.SplitJoin | freddy/query.py:64-65 | splitting undoes joining, so the split is the only delimiter-free segment list that joins to the path |
| Paths.SplitIsUnique | freddy/query.py:64-65 | the split is a non-empty list of delimiter-free segments joining to the path, and it is the only such list |
| Paths.NoDelimiterIsOneSegment | freddy/query.py:64-65 | a path without the delimiter is a single segment |
| Paths.Criteria | freddy/query.py:64-67 | `'*'` yields no segments; any other path yields the segments that join back to it, none of them containing the delimiter |
| Query.HasClash | freddy/query.py:72-74 | when some key at one object level contains the delimiter, the document's keys do not avoid it |
| Query.HasClashIsKeyLoop | freddy/query.py:72-74 | the key-by-key loop raises exactly when some key at that level contains the delimiter |
| Query.Find | freddy/query.py:69-83 | on an object none of whose keys holds the delimiter, the value under the key is returned, and a missing key is the bad-criteria error; a clash implies some key in the value contains the delimiter; an array maps to an array of the same length; a delimiter-free value yields a delimiter-free result |
| Query.FindEach | freddy/query.py:78-82 | the loop over the elements succeeds with element i being `find` of element i, or fails with the error of the first element that fails, all earlier elements succeeding |
| Query.Eval | freddy/query.py:84-87 | no segments leave the document as it is; a clash implies some key of the document contains the delimiter; a document whose keys avoid the delimiter yields a value whose keys avoid it too |
| Query.Classify | freddy/query.py:89-94 | `find`'s two exceptions are handed back as themselves, a list or dict as the value to encode, and anything else bare, each case exactly when the walk ends that way |
| Query.ClassifyInjective | freddy/query.py:89-94 | two walks get the same hand-back exactly when they produced the same value or raised the same exception |
| Query.ApplyCriteria | freddy/query.py:58-94 | `'*'` gives the document classified by its shape; for any cutting of the path into delimiter-free segments that join back to it, the answer is bad path, clash, composite or scalar according to the walk along those segments; a clash implies some key contains the delimiter |
| Query.StarSelectsDocument | freddy/query.py:64-67 | `'*'` returns the whole document, classified by its shape |
| Query.EvalIsAt | freddy/query.py:69-87 | when every key of the document avoids the delimiter and the path exists through objects, evaluating the path returns the value stored there |
| Query.EvalAppend | freddy/query.py:84-87 | segments are consumed left to right: a concatenated path evaluates as its first part, then its second part on that result, with the first error stopping the walk |
| Query.ClashAtVisitedObject | freddy/query.py:70-74 | an object reached with a segment left whose keys include one containing the delimiter gives a clash, whichever segment is sought |
| Query.MissingOrScalarIsBadPath | freddy/query.py:75-83 | a missing key at a clash-free object, or a scalar with a segment left, gives a bad path |
| Query.ClashNeedsDelimiterInKey | freddy/query.py:70-74 | a document whose keys avoid the delimiter never yields a clash |
| Query.Broadcast | freddy/query.py:78-82 | a segment on an array succeeds exactly when it succeeds on every element, giving an array of the same length whose element i is the segment applied to element i |
| Query.DelimiterOnlyMattersForClash | freddy/query.py:69-87 | when neither of two delimiters occurs in any key, the same segments evaluate to the same result under both |
| Query.FindDelimiterFree | freddy/query.py:69-83 | one `find` step gives the same result under two delimiters absent from the value's keys |
| Query.FindEachDelimiterFree | freddy/query.py:78-82 | the broadcast loop gives the same result under two delimiters absent from the elements' keys |
| Mask.MaskStep | freddy/query.py:147-157 | lfunc away from arrays yields a Bool, None or a composite passed on |
| Mask.Lfunc | freddy/query.py:138-157 | lfunc only ever pops the head of the shared list; on an array it pops at least once and yields one result per element; elsewhere it leaves the list alone |
| Mask.Reduce | freddy/query.py:144-162 | the fold only shortens the shared list from the front, and an array input yields an array of the same length |
| Mask.ReduceEach | freddy/query.py:141-146 | the loop over the elements yields one result per element and only shortens the shared list from the front |
| Mask.CreateFilter | freddy/query.py:130-163 | the mask's path is the split of the filter path on a full stop, and a root array yields truths of its length |
| Mask.Probe | freddy/query.py:147-157 | along a path with no array, the folded leaf rules end in a Bool, None or a composite |
| Mask.ReduceArrayFree | freddy/query.py:138-162 | along a path that meets no array, the literal fold pops nothing and computes the probe |
| Mask.ReduceFlat | freddy/query.py:156-157 | a Bool or None passes through every later step unchanged |
| Mask.ReduceEachFlat | freddy/query.py:141-157 | folds over elements that are all Bool or None return them unchanged and pop nothing |
| Mask.ReduceFlatArray | freddy/query.py:139-146 | later segments that reach an array of Bool/None entries pop the shared list but leave the entries as they are |
| Mask.Probes | freddy/query.py:141-146 | one probe per element, in element order |
| Mask.ReduceEachArrayFree | freddy/query.py:141-146 | when no element meets an array, the loop yields the elements' probes and pops nothing |
| Mask.MaskForArrayUnderRoot | freddy/query.py:130-163 | when the first segment names an array under the root and each element's rest of the path meets no array and ends at a scalar, the truths are exactly one probe per element |
| Mask.MaskForRootArray | freddy/query.py:139-162 | on a root array the first segment is popped unused and each element is probed along the rest of the path |
| Mask.NullPassesThrough | freddy/query.py:147-157 | None falls through every branch of lfunc, so once a step has produced it, every later segment keeps it and pops nothing |
| Mask.OtherScalarProbesNull | freddy/query.py:147-157 | a string, number or None met with a segment left gives None, which is falsy, and pops nothing |
| Mask.BoolPassesThrough | freddy/query.py:156-157 | once a comparison has produced a Bool, every later segment keeps it |
| Mask.ProbeIsEquality | freddy/query.py:147-155 | along a path through objects to a scalar, the probe is True exactly when the value at that path equals the target; a missing key anywhere is False, not an error |
| Applier.RootList | freddy/query.py:105-113 | one step fails exactly at an object that lacks the key; otherwise it keeps the lists recorded so far, and adds one only when it stands on a list, that list at the end |
| Applier.Locate | freddy/query.py:117-119 | the walk fails or keeps what was recorded before it as a prefix, adding at most one list per segment |
| Applier.FirstList | freddy/query.py:105-119 | the list found lies at a proper prefix of the path, every shorter prefix leads to an object, and navigating along that prefix reaches the list; a missing key means the whole path leads nowhere |
| Applier.Flags | freddy/query.py:122-124 | a list mask gives the truthiness of its entries; only lists, dicts and strings have a length |
| Applier.RemoveFirst | freddy/query.py:125 | `list.remove` succeeds exactly when the item is present, removing one occurrence and keeping all the other elements |
| Applier.UpdateAt | freddy/query.py:121-127 | writing at keys that lead nowhere leaves the document unchanged |
| Applier.Keep | freddy/query.py:123-125 | the reference filter keeps only flagged elements; all flags off empties the list, all flags on keeps it whole |
| Applier.LocateFromNone | freddy/query.py:111-113 | once root_list has returned None, the rest of the walk stays at None and records nothing |
| Applier.LocateOnList | freddy/query.py:111-113 | standing on a list, every remaining segment records that same list once more |
| Applier.LocateFromList | freddy/query.py:111-119 | a walk that starts on a list with segments left ends with that list on top of the recorded lists |
| Applier.LocateFromScalar | freddy/query.py:105-113 | a walk that starts on a scalar records nothing |
| Applier.LocateFindsFirstList | freddy/query.py:105-121 | the literal walk fails exactly on a missing key, records nothing when no list is reached with a segment left, and otherwise ends with the first such list on top |
| Applier.RemoveLoop | freddy/query.py:123-125 | the loop removes only elements of the list: when it succeeds, what is left plus the unflagged items still to visit is exactly the list it started from, and with every remaining flag set the list is unchanged |
| Applier.RemoveLoopSucceeds | freddy/query.py:123-125 | on a mask of the list's length the loop never raises, and it gives the positional filter whenever equal elements carry equal flags |
| Applier.RemoveFirstHead | freddy/query.py:125 | removing the head's value removes the head |
| Applier.RemoveFirstSkip | freddy/query.py:125 | an element before the first equal one stays in front |
| Applier.RemoveFirstAfter | freddy/query.py:125 | when no earlier element equals the item, remove deletes exactly that occurrence |
| Applier.RemoveLoopPositionalFrom | freddy/query.py:123-125 | from any pair on, when equal elements carry equal flags, the removal loop turns the partly filtered list into the positional filter |
| Applier.RemoveLoopPositionalStep | freddy/query.py:123-125 | one pair of the zip moves the partly filtered list on by one position: a flagged element joins the kept prefix, and an unflagged one is the first element equal to it, so remove deletes exactly it |
| Applier.RemoveLoopIsPositional | freddy/query.py:123-125 | removing by equality gives the flagged elements in their original order whenever equal elements carry equal flags |
| Applier.RemoveLoopSucceedsFrom | freddy/query.py:123-125 | the loop never raises while the items still to visit are contained in the current list |
| Applier.RemoveLoopNeverRaises | freddy/query.py:123-125 | `remove` never raises ValueError, whatever the flags |
| Applier.UpdateAtTarget | freddy/query.py:121-127 | the filtered array ends up where the walk found the list |
| Applier.UpdateAtElsewhere | freddy/query.py:121-127 | every path that leaves the target's keys sees the same value as before |
| Applier.SameKeysSameIndex | freddy/query.py:108 | replacing values without touching keys keeps where each key is found |
| Applier.ApplyFilter | freddy/query.py:97-127 | apply_filter gives BadCriteria exactly for a missing key, and IndexError exactly when no list is reached with a segment left; for a list mask of the right length remove never raises, the result is the document with the loop's list written back at the list's keys, and that list is the positional filter whenever equal elements carry equal entries |
| Applier.Finish | freddy/query.py:121-127 | after the walk: a failed walk is the path error, an empty record is the failing pop, a mask with no length is the failing `len`, and `remove` never raises; a filtered result writes back a sub-multiset of the last recorded list, for a mask of that list's length. `Applier.FinishFollowsWalk` ties each outcome to the list the walk finds |
| Applier.FinishFollowsWalk | freddy/query.py:121-127 | after a walk that agrees with FirstList, popping the last recorded list and running the loop gives the outcomes listed for ApplyFilter |
| Facade.BadPathMessage | freddy/query.py:186-189 | the bad-path message is the fixed 23-character lead-in followed by the path, which can be read back from it |
| Facade.ClashMessage | freddy/query.py:190-194 | the clash message has 43 characters and names the delimiter at position 20, between fixed texts |
| Facade.MessagesNameTheirCause | freddy/query.py:186-194 | different paths give different bad-path messages, and different delimiters different clash messages |
| Facade.Apply | freddy/query.py:178-194 | with a one-character delimiter, apply never lets an exception escape |
| Facade.FilterOn | freddy/query.py:196-212 | every message filter_on returns is the bad-path one naming the path, and a bare scalar is never returned |
| Facade.MessagesDiffer | freddy/query.py:186-194 | the bad-path and clash messages can be told apart |
| Facade.ApplyReplies | freddy/query.py:178-194 | apply maps a bad path to the message naming the path and a clash to the message naming the delimiter; a composite result is encoded and a scalar returned bare, each exactly when the query yields it |
| Facade.ApplyStar | freddy/query.py:64-94 | `'*'` gives back the whole document |
| Facade.DelimiterFreeDocumentResolves | freddy/query.py:69-87 | when no key contains either of two delimiters, apply never gives the clash message, and paths with the same segments give the same answer under both delimiters |
| Facade.ReduceReachesList | freddy/query.py:138-162 | whenever the applier's walk finds its list, the literal mask is a list of exactly that length, so the assertion at line 122 holds |
| Facade.FilterOnOutcome | freddy/query.py:196-212 | filter_on gives the bad-path message exactly for a missing key, raises only the IndexError of a path that reaches no list with a segment left, and otherwise returns the encoded document |
| Facade.FlagsOfBools | freddy/query.py:123-124 | the truthiness of a list of Bools is those Bools |
| Facade.Matches | freddy/query.py:150-152 | one flag per element: whether its value at the rest of the path is the target |
| Facade.ProbesAreMatches | freddy/query.py:138-157 | on the usual shape the mask's truthiness is exactly Matches |
| Facade.MatchesConsistent | freddy/query.py:123-125 | equal elements get equal match flags, so removing by equality is positional on the usual shape |
| Facade.FilterWithFlags | freddy/query.py:121-127 | once the walk finds the list and the mask has its length, filtering writes the positional filter back at the list's keys |
| Facade.FlagsUnderRoot | freddy/query.py:130-163 | on the usual shape the mask is a list of the array's length whose truthiness is Matches |
| Facade.FirstListUnderRoot | freddy/query.py:105-119 | a path whose first segment names an array under the root reaches that array with a segment left |
| Facade.FilterOnArrayUnderRoot | freddy/query.py:196-203 | on the usual shape the array is replaced by the elements whose value at the rest of the path equals the target, in their original order, and nothing else changes |
| Facade.ScalarsMask | freddy/query.py:138-163 | when the first segment names an array under the root whose elements are strings, numbers or nulls, and a segment is left, the mask is a list of the array's length whose entries are all None |
| Facade.NullsFlagNothing | freddy/query.py:123-124 | a list of None entries has a length, and every entry is falsy |
| Facade.FilterOnScalarsEmpties | freddy/query.py:196-203 | such an array is emptied by filter_on whatever the target, and nothing else changes |
| Facade.FilterOnRootArray | freddy/query.py:139-146 | on a root array the first segment is skipped and the elements are filtered on the rest of the path |
| Scenarios.MissingKeyText | freddy/tests/test_basics.py:26-30 | the bad-path message for `level11` is the text the test expects |
| Scenarios.MissingKeyPartText | freddy/tests/test_basics.py:32-36 | the bad-path message for `level2.level23` is the text the test expects |
| Scenarios.ClashText | freddy/tests/test_basics.py:53-59 | the clash message for `.` is the text the test expects |
| Scenarios.QueryLevel1 | freddy/tests/test_basics.py:78-81 | `apply('level1')` returns the bare string `item_level1` |
| Scenarios.QueryLevel2Level3 | freddy/tests/test_basics.py:83-86 | `apply('level2.level3')` returns the bare string `item_level3` |
| Scenarios.QueryLevel2 | freddy/tests/test_basics.py:88-94 | `apply('level2')` returns the nested object, encoded |
| Scenarios.QueryMissingKey | freddy/tests/test_basics.py:26-30 | `apply('level11')` gives the bad-path message |
| Scenarios.QueryMissingKeyPart | freddy/tests/test_basics.py:32-36 | a missing second segment gives the bad-path message naming the whole path |
| Scenarios.QueryClashingKey | freddy/tests/test_basics.py:53-59 | a key `level2.5` makes `level2.5.level35` a clash |
| Scenarios.QueryOtherDelimiter | freddy/tests/test_basics.py:61-67 | with `^` as delimiter the same document resolves `level2.5^level35` to the bare `item_level35` |
| Scenarios.QueryTwoSubObjects | freddy/tests/test_basics.py:118-124 | `apply('level2')` returns both sub-objects, encoded |
| Scenarios.QueryRepeatedKeyNoList | freddy/tests/test_basics.py:147-154 | the dict literal that writes `level25` twice keeps the second value, and `apply('level2.level25')` returns it, encoded |
| Scenarios.QuerySameKeys | freddy/tests/test_basics.py:181-187 | the last segment is broadcast over the list, one result per element in order |
| Scenarios.QuerySameKeysRoot | freddy/tests/test_basics.py:189-195 | `apply('level2')` returns the list itself, encoded |
| Scenarios.FilterWhereEqualsName | freddy/tests/test_filtering.py:39-49 | filtering on `contests.name` keeps only the contest named `contest1` |
| Scenarios.FilterWhereEqualsTwo | freddy/tests/test_filtering.py:51-63 | filtering on `contests.entry_count` keeps both contests with 24 entries, in their order |
| Scenarios.FilterNoMatch | freddy/query.py:123-127 | when no element matches, the list is emptied and the rest of the document kept |
| Scenarios.FilterMissingKey | freddy/query.py:204-207 | a missing first key gives the bad-path message |
| Scenarios.FilterPathEndsAtList | freddy/query.py:111-121 | a path that ends on the list records nothing, and popping the empty list of recorded lists raises |
| Scenarios.FilterTwoLevelsDown | freddy/tests/test_filtering.py:110-121 | filtering two levels below the list keeps the matching contest whole |
| Scenarios.FilterTwoLevelsMatchesTwo | freddy/tests/test_filtering.py:123-137 | the count filter on the larger contests keeps both matching contests whole |
| Scenarios.NestedMask | freddy/query.py:138-146 | for `{"A":[{"B":[{"C":1}]}]}` and path `A.B.C`, the outer array has one element, and the mask's one entry is a list holding the comparison of C one level deeper |
| Scenarios.NestedFilterKeepsAll | freddy/query.py:121-125 | on that one-element document the entry is a non-empty list and so truthy, and the filter keeps the element whether or not the innermost value matches |
| Scenarios.Nested2SecondFold | freddy/query.py:147-155 | the second outer element is folded with the shared list already at `["C"]`, so C is looked up one level too shallow and the answer is False |
| Scenarios.MissingKeyFold | freddy/query.py:153-155 | a one-segment fold on an object without the key gives False |
| Scenarios.Nested2MiddleFold | freddy/query.py:141-146 | folding the two outer elements gives the nested comparison for the first and False for the second, leaving `["C"]` |
| Scenarios.Nested2Mask | freddy/query.py:138-163 | for `{"A":[{"B":[{"C":1}]},{"B":[{"C":2}]}]}` and path `A.B.C` the mask is the nested comparison followed by False |
| Scenarios.FilterSecondOfTwo | freddy/query.py:121-127 | on a root object whose first key holds a two-element list, a mask flagging only the first element writes back a list holding just that element |
| Scenarios.Nested2FilterDropsSecond | freddy/query.py:121-127 | on the two-element document the second element is removed whatever the target, even the target 2 that only it matches |

## Left out

- The JSON codec (`json.loads`, `json.dumps`) and `pretty_json` (freddy/query.py:43-55) are an external library. Documents are decoded Values, and composite results are returned as the Value the source would encode. The key order in the tests' expected strings comes from Python 2 dict iteration and is not modelled.
- `byteify` (freddy/query.py:26-40) converts unicode to UTF-8 bytes. It is the identity on modelled strings.
- `ResultFilter.__init__` re-encoding non-string input (freddy/query.py:172-175) is codec plumbing. The facade holds the decoded document.
- Floating-point numbers and Python's cross-type `==` (`True == 1`, `1 == 1.0`) are left out. Numbers are integers, and equality is equality of tagged Values, including the order of keys inside objects.
- Duplicate keys in a decoded object are left out. Lookup takes the first pair with the key; a decoded dict never has two. The dict literal of freddy/tests/test_basics.py:127-140 writes `level25` twice, and Python keeps only the last value, so its scenario (`Scenarios.QueryRepeatedKeyNoList`) uses a document with a single `level25`.
- A delimiter of more than one character is left out. The delimiter is a single character, as every use in the repository is.
- An empty delimiter is left out. `str.split('')` raises ValueError at freddy/query.py:65, and `apply` (freddy/query.py:178-194) does not catch it. A Dafny `char` cannot be empty.
- The clash handler of `filter_on` (freddy/query.py:208-212) is unreachable. The model has no such branch, and `FilterOn`'s contract states that its only message is the bad-path one.
- Applier.Flags: a dict or string mask zips its keys or characters in Python's iteration order. The model takes the order in which the pairs are stored. No path the filter can take yields such a mask, because `ReduceReachesList` shows the mask is a list whenever the walk finds its list.
- The zip is taken with Python 2 semantics, as a list built before the loop. Under Python 3 the lazy `zip` would read the list while `remove` shortens it, skipping elements; that behaviour is not modelled.
- Facade.Apply: its contract states only that no exception escapes, for a one-character delimiter; the full mapping of outcomes to replies is `Facade.ApplyReplies`. With an empty delimiter the source lets ValueError escape, which the model cannot express.
- Mask.MaskStep: its contract gives only the kind of value one step yields. The leaf rules themselves are stated by other members. Objects are covered by `Mask.ProbeIsEquality`, along whole sub-paths. Booleans are covered by `Mask.BoolPassesThrough`. None, and the strings and numbers that fall through to it, are covered by `Mask.NullPassesThrough` and `Mask.OtherScalarProbesNull`.
- Mask.CreateFilter: its contract gives the path and the truths' length on a root array. The truths' contents are stated by `Mask.MaskForArrayUnderRoot` and `Mask.MaskForRootArray`.
- Applier.UpdateAt: its contract covers only keys that lead nowhere. Where the new value lands, and that nothing else changes, are `Applier.UpdateAtTarget` and `Applier.UpdateAtElsewhere`.
- Facade.FilterOn: its contract states only which message and reply kinds can occur. The outcome for each walk is `Facade.FilterOnOutcome`, and the filtered document is `Facade.FilterOnArrayUnderRoot`.

=== FILE: applier.dfy ===
/**
  The filter applier `apply_filter`: re-walk the mask's path with
  `root_list`, take the array it recorded, and remove from that array, in
  place, every element whose mask entry is falsy.

  `root_list` descends through objects by key, records the current list
  each time a segment is consumed while standing on a list (and stays on
  it), and falls through to None on any other value. The applier then
  pops the last recorded list, asserts that the mask has its length, and
  runs `last_list.remove(item)` for every pair of the zip of the list and
  the mask whose entry is falsy. The zip is built before the loop, so the
  loop sees the original elements; `remove` deletes the first element
  equal to `item`. The in-place change shows up in the encoded root; here
  the root is rebuilt with the filtered array at the recorded keys.
 */
module Applier {
  import opened Json
  import opened Mask

  /** Where root_list stands: a value reached from the root through
      `keys`, or the None it returns on a scalar (and on None). */
  datatype Cursor = Node(keys: seq<string>, v: Value) | Gone

  /** A list appended to `list_elements`: where it sits and what it holds. */
  datatype Recorded = Recorded(keys: seq<string>, elems: seq<Value>)

  /** The state of the walk: the cursor and `list_elements`. */
  datatype Walk = Walk(cur: Cursor, recorded: seq<Recorded>)

  /** The Python exceptions apply_filter lets escape:
      IndexError from popping an empty `list_elements`, TypeError from
      `len` of a mask that has no length, AssertionError from the length
      check, ValueError from `remove` of an absent element. */
  datatype Crash = NoListReached | MaskNotSized | LengthMismatch | ItemNotInList

  datatype Applied = Filtered(doc: Value) | BadPathError | Crashed(why: Crash)

  /** `root_list(k, jv)`; None stands for the KeyError turned into
      BadCriteriaError. */
  function RootList(k: string, w: Walk): (r: Option<Walk>)
    ensures r.None? <==> w.cur.Node? && w.cur.v.Obj? && Lookup(w.cur.v.fields, k).None?
    ensures r.Some? ==> IsPrefix(w.recorded, r.value.recorded)
    ensures r.Some? && |r.value.recorded| != |w.recorded| ==>
              w.cur.Node? && w.cur.v.Arr? && r.value.recorded == w.recorded + [Recorded(w.cur.keys, w.cur.v.elems)]
  {
    match w.cur
    case Gone => Some(w)
    case Node(keys, v) =>
      match v
      case Obj(fields) =>
        (match Lookup(fields, k)
         case None => None
         case Some(child) => Some(Walk(Node(keys + [k], child), w.recorded)))
      case Arr(elems) => Some(Walk(w.cur, w.recorded + [Recorded(keys, elems)]))
      case _ => Some(Walk(Gone, w.recorded))
  }

  /** The `while mask_path:` loop, segments left to right. */
  function Locate(path: seq<string>, w: Walk): (r: Option<Walk>)
    ensures r.Some? ==> IsPrefix(w.recorded, r.value.recorded)
    ensures r.Some? ==> |r.value.recorded| <= |w.recorded| + |path|
    decreases |path|
  {
    if |path| == 0 then Some(w)
    else
      match RootList(path[0], w)
      case None => None
      case Some(w') => Locate(path[1..], w')
  }

  /** `list_elements` only ever grows at the end. */
  predicate IsPrefix(a: seq<Recorded>, b: seq<Recorded>) {
    |a| <= |b| && b[..|a|] == a
  }

  /** What walking a path finds, stated directly: a missing key, no list
      reached with a segment left, or the first such list. */
  datatype Target = Missing | NoList | ListAt(keys: seq<string>, elems: seq<Value>)

  function FirstList(path: seq<string>, v: Value): (t: Target)
    ensures t.ListAt? ==> |t.keys| < |path| && t.keys == path[..|t.keys|]
    ensures t.ListAt? ==> At(v, t.keys) == Some(Arr(t.elems))
    ensures t.ListAt? ==> forall n :: 0 <= n < |t.keys| ==> At(v, path[..n]).Some? && At(v, path[..n]).value.Obj?
    ensures t == Missing ==> At(v, path).None?
    decreases |path|
  {
    if |path| == 0 then NoList
    else
      match v
      case Arr(elems) => ListAt([], elems)
      case Obj(fields) =>
        (match Lookup(fields, path[0])
         case None => Missing
         case Some(child) =>
           match FirstList(path[1..], child)
           case ListAt(keys, elems) =>
             ObjectsBeforeList(v, path, child, keys);
             ListAt([path[0]] + keys, elems)
           case other => other)
      case _ => NoList
  }

  /** Objects stand at the first `|keys| + 1` prefixes of the path when
      they do below the first key. */
  lemma ObjectsBeforeList(v: Value, path: seq<string>, child: Value, keys: seq<string>)
    requires |path| > 0 && v.Obj? && Lookup(v.fields, path[0]) == Some(child)
    requires |keys| < |path| - 1
    requires forall n :: 0 <= n < |keys| ==> At(child, path[1..][..n]).Some? && At(child, path[1..][..n]).value.Obj?
    ensures forall n :: 0 <= n < |[path[0]] + keys| ==> At(v, path[..n]).Some? && At(v, path[..n]).value.Obj?
  {
    AtThroughFirstKey(v, path, child);
    forall n | 0 <= n < |[path[0]] + keys|
      ensures At(v, path[..n]).Some? && At(v, path[..n]).value.Obj?
    {
      if n == 0 {
        assert path[..0] == [];
      } else {
        assert At(v, path[..(n - 1) + 1]) == At(child, path[1..][..n - 1]);
      }
    }
  }

  /** Navigation along a prefix of length `n + 1` goes through the child
      found under the first key. */
  lemma AtThroughFirstKey(v: Value, path: seq<string>, child: Value)
    requires |path| > 0 && v.Obj? && Lookup(v.fields, path[0]) == Some(child)
    ensures forall n :: 0 <= n < |path| ==> At(v, path[..n + 1]) == At(child, path[1..][..n])
  {
    forall n | 0 <= n < |path|
      ensures At(v, path[..n + 1]) == At(child, path[1..][..n])
    {
      assert path[..n + 1][0] == path[0];
      assert path[..n + 1][1..] == path[1..][..n];
    }
  }

  /** `len(truths)` and the truth values the zip pairs with the list:
      a list gives its entries, a dict its keys, a string its characters;
      anything else has no length. */
  function Flags(truths: Value): (r: Option<seq<bool>>)
    ensures truths.Arr? ==> r == Some(seq(|truths.elems|, i requires 0 <= i < |truths.elems| => Truthy(truths.elems[i])))
    ensures r.Some? <==> truths.Arr? || truths.Obj? || truths.Str?
  {
    match truths
    case Arr(elems) => Some(seq(|elems|, i requires 0 <= i < |elems| => Truthy(elems[i])))
    case Obj(fields) => Some(seq(|fields|, i requires 0 <= i < |fields| => |fields[i].0| > 0))
    case Str(s) => Some(seq(|s|, i requires 0 <= i < |s| => true))
    case _ => None
  }

  /** `list.remove(x)`: drop the first element equal to `x`; None is the
      ValueError raised when there is none. */
  function RemoveFirst(s: seq<Value>, x: Value): (r: Option<seq<Value>>)
    ensures r.Some? <==> x in s
    ensures r.Some? ==> |r.value| == |s| - 1 && multiset(r.value) == multiset(s) - multiset{x}
  {
    if |s| == 0 then None
    else if s[0] == x then
      assert s == [s[0]] + s[1..];
      Some(s[1..])
    else
      match RemoveFirst(s[1..], x)
      case None => None
      case Some(rest) =>
        assert s == [s[0]] + s[1..];
        Some([s[0]] + rest)
  }

  /** The removal loop over the pairs of the zip, from pair `j` on, with
      `cur` the list as the earlier removals left it. */
  function RemoveLoop(cur: seq<Value>, items: seq<Value>, flags: seq<bool>, j: nat): (r: Option<seq<Value>>)
    requires |items| == |flags| && j <= |items|
    ensures r.Some? ==> multiset(r.value) <= multiset(cur)
    ensures r.Some? ==> multiset(r.value) + multiset(Dropped(items, flags, j)) == multiset(cur)
    ensures (forall i :: j <= i < |items| ==> flags[i]) ==> r == Some(cur)
    decreases |items| - j
  {
    if j == |items| then Some(cur)
    else if flags[j] then RemoveLoop(cur, items, flags, j + 1)
    else
      match RemoveFirst(cur, items[j])
      case None => None
      case Some(cur') => RemoveLoop(cur', items, flags, j + 1)
  }

  /** The items from pair `j` on whose flag is unset: what the loop removes. */
  function Dropped(items: seq<Value>, flags: seq<bool>, j: nat): seq<Value>
    requires |items| == |flags| && j <= |items|
    decreases |items| - j
  {
    if j == |items| then []
    else (if flags[j] then [] else [items[j]]) + Dropped(items, flags, j + 1)
  }

  /** Rebuild `v` with `nv` at the end of `keys` (first matching key at
      each object); `v` itself when `keys` leads nowhere. */
  function UpdateAt(v: Value, keys: seq<string>, nv: Value): (r: Value)
    ensures At(v, keys).None? ==> r == v
    decreases |keys|
  {
    if |keys| == 0 then nv
    else if !v.Obj? then v
    else
      match IndexOf(v.fields, keys[0])
      case None => v
      case Some(i) =>
        Obj(v.fields[i := (keys[0], UpdateAt(v.fields[i].1, keys[1..], nv))])
  }

  /** `apply_filter(mask, doc)` with the codec left out. Its outcome
      follows the walk: BadCriteria for a missing key, IndexError when no
      list is reached with a segment left, and, when the mask is a list of
      the right length, the document with the first such list filtered by
      the truthiness of the mask entries, positional whenever equal
      elements carry equal entries. */
  function ApplyFilter(mask: FilterMask, doc: Value): (r: Applied)
    ensures FirstList(mask.path, doc) == Missing <==> r == BadPathError
    ensures FirstList(mask.path, doc) == NoList <==> r == Crashed(NoListReached)
    ensures FirstList(mask.path, doc).ListAt? && mask.truths.Arr?
            && |mask.truths.elems| == |FirstList(mask.path, doc).elems| ==>
              var t := FirstList(mask.path, doc);
              var flags := Flags(mask.truths).value;
              && RemoveLoop(t.elems, t.elems, flags, 0).Some?
              && r == Filtered(UpdateAt(doc, t.keys, Arr(RemoveLoop(t.elems, t.elems, flags, 0).value)))
              && (Consistent(t.elems, flags) ==> r == Filtered(UpdateAt(doc, t.keys, Arr(Keep(t.elems, flags)))))
  {
    var loc := Locate(mask.path, Walk(Node([], doc), []));
    LocateFindsFirstList(mask.path, [], doc);
    FinishFollowsWalk(mask.truths, doc, loc, FirstList(mask.path, doc));
    Finish(mask.truths, doc, loc)
  }

  /** apply_filter after the walk: pop the last recorded list, check the
      mask's length, and run the removal loop. A walk that raised is the
      path error, an empty record is the pop that fails, a mask that has no
      length is the failing `len`, and the removal loop never raises; when
      it filters, the list it writes back is a sub-multiset of the last
      recorded list and sized like the mask. */
  function Finish(truths: Value, doc: Value, loc: Option<Walk>): (r: Applied)
    ensures r == BadPathError <==> loc.None?
    ensures r == Crashed(NoListReached) <==> loc.Some? && loc.value.recorded == []
    ensures r == Crashed(MaskNotSized) <==>
              loc.Some? && loc.value.recorded != [] && !(truths.Arr? || truths.Obj? || truths.Str?)
    ensures r != Crashed(ItemNotInList)
    ensures r.Filtered? ==>
              && loc.Some? && loc.value.recorded != []
              && var last := loc.value.recorded[|loc.value.recorded| - 1];
                 && Flags(truths).Some? && |Flags(truths).value| == |last.elems|
                 && exists kept :: multiset(kept) <= multiset(last.elems) && r.doc == UpdateAt(doc, last.keys, Arr(kept))
  {
    match loc
    case None => BadPathError
    case Some(w) =>
      if |w.recorded| == 0 then Crashed(NoListReached)
      else
        var last := w.recorded[|w.recorded| - 1];
        match Flags(truths)
        case None => Crashed(MaskNotSized)
        case Some(flags) =>
          if |flags| != |last.elems| then Crashed(LengthMismatch)
          else
            RemoveLoopNeverRaises(last.elems, flags);
            match RemoveLoop(last.elems, last.elems, flags, 0)
            case None => Crashed(ItemNotInList)
            case Some(kept) =>
              assert multiset(kept) <= multiset(last.elems);
              Filtered(UpdateAt(doc, last.keys, Arr(kept)))
  }

  lemma FinishFollowsWalk(truths: Value, doc: Value, loc: Option<Walk>, t: Target)
    requires Agrees(t, loc, [])
    ensures t == Missing <==> Finish(truths, doc, loc) == BadPathError
    ensures t == NoList <==> Finish(truths, doc, loc) == Crashed(NoListReached)
    ensures t.ListAt? && truths.Arr? && |truths.elems| == |t.elems| ==>
              var flags := Flags(truths).value;
              && RemoveLoop(t.elems, t.elems, flags, 0).Some?
              && Finish(truths, doc, loc) == Filtered(UpdateAt(doc, t.keys, Arr(RemoveLoop(t.elems, t.elems, flags, 0).value)))
              && (Consistent(t.elems, flags) ==> Finish(truths, doc, loc) == Filtered(UpdateAt(doc, t.keys, Arr(Keep(t.elems, flags)))))
  {
    match t
    case Missing =>
      assert loc.None?;
    case NoList =>
      assert loc.Some? && loc.value.recorded == [];
    case ListAt(keys, elems) =>
      var w := loc.value;
      assert w.recorded != [];
      assert w.recorded[|w.recorded| - 1] == Recorded(keys, elems) by {
        assert [] + keys == keys;
      }
      if truths.Arr? && |truths.elems| == |elems| {
        var flags := Flags(truths).value;
        RemoveLoopSucceeds(elems, flags);
        var kept := RemoveLoop(elems, elems, flags, 0).value;
        assert Finish(truths, doc, loc) == Filtered(UpdateAt(doc, keys, Arr(kept))) by {
          assert Flags(truths) == Some(flags) && |flags| == |elems|;
        }
      }
  }

  // ---------------------------------------------------------------------
  // The walk.

  lemma {:induction false} LocateFromNone(path: seq<string>, rec: seq<Recorded>)
    ensures Locate(path, Walk(Gone, rec)) == Some(Walk(Gone, rec))
    decreases |path|
  {
    if |path| > 0 {
      LocateFromNone(path[1..], rec);
    }
  }

  /** Once on a list the walk stays there and records it once per segment. */
  lemma {:induction false} LocateOnList(path: seq<string>, keys: seq<string>, elems: seq<Value>, rec: seq<Recorded>)
    ensures Locate(path, Walk(Node(keys, Arr(elems)), rec)).Some?
    ensures var w := Locate(path, Walk(Node(keys, Arr(elems)), rec)).value;
            && |w.recorded| == |rec| + |path|
            && w.recorded[..|rec|] == rec
            && forall i :: |rec| <= i < |w.recorded| ==> w.recorded[i] == Recorded(keys, elems)
    decreases |path|
  {
    if |path| > 0 {
      var rec' := rec + [Recorded(keys, elems)];
      LocateOnList(path[1..], keys, elems, rec');
      var w := Locate(path, Walk(Node(keys, Arr(elems)), rec)).value;
      assert w.recorded[..|rec'|] == rec';
      assert w.recorded[..|rec|] == rec'[..|rec|];
    }
  }

  /** The literal walk ended the way FirstList says it should: BadPath
      for a missing key, nothing recorded when no list was reached with a
      segment left, and otherwise that list (reached through `pre`) on top
      of `list_elements`. */
  predicate Agrees(t: Target, r: Option<Walk>, pre: seq<string>) {
    match t
    case Missing => r.None?
    case NoList => r.Some? && r.value.recorded == []
    case ListAt(keys, elems) =>
      && r.Some?
      && |r.value.recorded| > 0
      && r.value.recorded[|r.value.recorded| - 1] == Recorded(pre + keys, elems)
  }

  lemma LocateFromList(path: seq<string>, pre: seq<string>, elems: seq<Value>)
    requires |path| > 0
    ensures Agrees(FirstList(path, Arr(elems)), Locate(path, Walk(Node(pre, Arr(elems)), [])), pre)
  {
    var w := Walk(Node(pre, Arr(elems)), []);
    var w1 := Walk(Node(pre, Arr(elems)), [Recorded(pre, elems)]);
    assert Locate(path, w) == Locate(path[1..], w1) by {
      assert w.recorded + [Recorded(pre, elems)] == [Recorded(pre, elems)];
      assert RootList(path[0], w) == Some(w1);
    }
    LocateOnList(path[1..], pre, elems, [Recorded(pre, elems)]);
    var rec := Locate(path[1..], w1).value.recorded;
    assert rec[|rec| - 1] == Recorded(pre, elems);
    assert FirstList(path, Arr(elems)) == ListAt([], elems);
    assert pre + [] == pre;
  }

  lemma LocateFromScalar(path: seq<string>, pre: seq<string>, v: Value)
    requires |path| > 0 && !IsComposite(v)
    ensures Agrees(FirstList(path, v), Locate(path, Walk(Node(pre, v), [])), pre)
  {
    assert RootList(path[0], Walk(Node(pre, v), [])) == Some(Walk(Gone, []));
    LocateFromNone(path[1..], []);
  }

  lemma {:induction false} LocateFindsFirstList(path: seq<string>, pre: seq<string>, v: Value)
    ensures Agrees(FirstList(path, v), Locate(path, Walk(Node(pre, v), [])), pre)
    decreases |path|
  {
    if |path| > 0 {
      if v.Arr? {
        LocateFromList(path, pre, v.elems);
      } else if v.Obj? {
        match Lookup(v.fields, path[0]) {
          case None =>
          case Some(child) =>
            LocateFindsFirstList(path[1..], pre + [path[0]], child);
            if FirstList(path[1..], child).ListAt? {
              var keys := FirstList(path[1..], child).keys;
              assert pre + [path[0]] + keys == pre + ([path[0]] + keys);
            }
        }
      } else {
        LocateFromScalar(path, pre, v);
      }
    }
  }

  // ---------------------------------------------------------------------
  // The removal loop.

  /** The reference filter: the elements whose flag is set, in order. */
  function Keep(items: seq<Value>, flags: seq<bool>): (r: seq<Value>)
    requires |items| == |flags|
    ensures |r| <= |items|
    ensures forall x :: x in r ==> exists i :: 0 <= i < |items| && items[i] == x && flags[i]
    ensures (forall i :: 0 <= i < |flags| ==> !flags[i]) ==> r == []
    ensures (forall i :: 0 <= i < |flags| ==> flags[i]) ==> r == items
    decreases |items|
  {
    if |items| == 0 then []
    else
      var n := |items| - 1;
      Keep(items[..n], flags[..n]) + (if flags[n] then [items[n]] else [])
  }

  /** Equal elements carry the same flag. */
  predicate Consistent(items: seq<Value>, flags: seq<bool>)
    requires |items| == |flags|
  {
    forall i, j :: 0 <= i < |items| && 0 <= j < |items| && items[i] == items[j] ==> flags[i] == flags[j]
  }

  lemma RemoveFirstHead(x: Value, q: seq<Value>)
    ensures RemoveFirst([x] + q, x) == Some(q)
  {
    assert ([x] + q)[0] == x && ([x] + q)[1..] == q;
  }

  /** An element before the first equal one is kept in front. */
  lemma RemoveFirstSkip(p: seq<Value>, x: Value, q: seq<Value>)
    requires |p| > 0 && p[0] != x
    requires RemoveFirst(p[1..] + [x] + q, x) == Some(p[1..] + q)
    ensures RemoveFirst(p + [x] + q, x) == Some(p + q)
  {
    var s := p + [x] + q;
    assert s[0] == p[0];
    assert s[1..] == p[1..] + [x] + q;
    assert [p[0]] + (p[1..] + q) == p + q;
  }

  /** Removing the first equal element when no earlier element is equal. */
  lemma {:induction false} RemoveFirstAfter(p: seq<Value>, x: Value, q: seq<Value>)
    requires x !in p
    ensures RemoveFirst(p + [x] + q, x) == Some(p + q)
    decreases |p|
  {
    if |p| == 0 {
      assert p + [x] + q == [x] + q;
      assert p + q == q;
      RemoveFirstHead(x, q);
    } else {
      assert p[0] in p;
      assert x !in p[1..] by { assert forall y :: y in p[1..] ==> y in p; }
      RemoveFirstAfter(p[1..], x, q);
      RemoveFirstSkip(p, x, q);
    }
  }

  lemma {:induction false} RemoveLoopPositionalFrom(items: seq<Value>, flags: seq<bool>, j: nat)
    requires |items| == |flags| && j <= |items|
    requires Consistent(items, flags)
    ensures RemoveLoop(Keep(items[..j], flags[..j]) + items[j..], items, flags, j) == Some(Keep(items, flags))
    decreases |items| - j
  {
    if j == |items| {
      var kept := Keep(items[..j], flags[..j]);
      assert items[..j] == items && flags[..j] == flags;
      assert items[j..] == [];
      assert kept + items[j..] == kept;
    } else {
      RemoveLoopPositionalStep(items, flags, j);
      RemoveLoopPositionalFrom(items, flags, j + 1);
    }
  }

  /** One pair of the zip moves the partly filtered list on by one
      position: a flagged element joins the kept prefix, and an unflagged
      one is the first element equal to it, so remove deletes it. */
  lemma RemoveLoopPositionalStep(items: seq<Value>, flags: seq<bool>, j: nat)
    requires |items| == |flags| && j < |items|
    requires Consistent(items, flags)
    ensures RemoveLoop(Keep(items[..j], flags[..j]) + items[j..], items, flags, j)
            == RemoveLoop(Keep(items[..j + 1], flags[..j + 1]) + items[j + 1..], items, flags, j + 1)
  {
    var kept := Keep(items[..j], flags[..j]);
    assert items[..j + 1][..j] == items[..j];
    assert flags[..j + 1][..j] == flags[..j];
    assert items[j..] == [items[j]] + items[j + 1..];
    var kept' := Keep(items[..j + 1], flags[..j + 1]);
    if flags[j] {
      assert kept' == kept + [items[j]];
      assert kept + items[j..] == kept' + items[j + 1..];
    } else {
      assert kept' == kept;
      assert forall i :: 0 <= i < j && items[..j][i] == items[j] ==> !flags[..j][i];
      assert items[j] !in kept;
      assert kept + items[j..] == kept + [items[j]] + items[j + 1..];
      RemoveFirstAfter(kept, items[j], items[j + 1..]);
    }
  }

  /** Removing by equality is positional filtering whenever equal elements
      carry equal flags: the result keeps exactly the flagged elements in
      their original order. */
  lemma RemoveLoopIsPositional(items: seq<Value>, flags: seq<bool>)
    requires |items| == |flags|
    requires Consistent(items, flags)
    ensures RemoveLoop(items, items, flags, 0) == Some(Keep(items, flags))
  {
    assert items[..0] == [] && flags[..0] == [];
    assert Keep(items[..0], flags[..0]) + items[0..] == items;
    RemoveLoopPositionalFrom(items, flags, 0);
  }

  lemma {:induction false} RemoveLoopSucceedsFrom(cur: seq<Value>, items: seq<Value>, flags: seq<bool>, j: nat)
    requires |items| == |flags| && j <= |items|
    requires multiset(items[j..]) <= multiset(cur)
    ensures RemoveLoop(cur, items, flags, j).Some?
    decreases |items| - j
  {
    if j < |items| {
      assert items[j..] == [items[j]] + items[j + 1..];
      if flags[j] {
        RemoveLoopSucceedsFrom(cur, items, flags, j + 1);
      } else {
        assert items[j] in multiset(cur);
        var cur' := RemoveFirst(cur, items[j]).value;
        RemoveLoopSucceedsFrom(cur', items, flags, j + 1);
      }
    }
  }

  /** `remove` never raises: every element the loop removes is still in
      the list, whatever the flags. */
  lemma RemoveLoopNeverRaises(items: seq<Value>, flags: seq<bool>)
    requires |items| == |flags|
    ensures RemoveLoop(items, items, flags, 0).Some?
  {
    assert items[0..] == items;
    RemoveLoopSucceedsFrom(items, items, flags, 0);
  }

  /** The removal loop of apply_filter never raises, and it filters by
      position whenever equal elements carry equal flags. */
  lemma RemoveLoopSucceeds(items: seq<Value>, flags: seq<bool>)
    requires |items| == |flags|
    ensures RemoveLoop(items, items, flags, 0).Some?
    ensures Consistent(items, flags) ==> RemoveLoop(items, items, flags, 0) == Some(Keep(items, flags))
  {
    RemoveLoopNeverRaises(items, flags);
    if Consistent(items, flags) {
      RemoveLoopIsPositional(items, flags);
    }
  }

  // ---------------------------------------------------------------------
  // Writing the filtered array back.

  /** The filtered array ends up where the walk found the list. */
  lemma {:induction false} UpdateAtTarget(v: Value, keys: seq<string>, nv: Value)
    requires At(v, keys).Some?
    ensures At(UpdateAt(v, keys, nv), keys) == Some(nv)
    decreases |keys|
  {
    if |keys| > 0 {
      var i := IndexOf(v.fields, keys[0]).value;
      var fields' := v.fields[i := (keys[0], UpdateAt(v.fields[i].1, keys[1..], nv))];
      UpdateAtTarget(v.fields[i].1, keys[1..], nv);
      SameKeysSameIndex(v.fields, fields', keys[0]);
    }
  }

  /** Nothing outside the target changes: a path that leaves `keys` at some
      position sees the same value as before. */
  lemma {:induction false} UpdateAtElsewhere(v: Value, keys: seq<string>, nv: Value, q: seq<string>, n: nat)
    requires n < |keys| && n < |q|
    requires q[..n] == keys[..n] && q[n] != keys[n]
    ensures At(UpdateAt(v, keys, nv), q) == At(v, q)
    decreases n
  {
    if v.Obj? && IndexOf(v.fields, keys[0]).Some? {
      var i := IndexOf(v.fields, keys[0]).value;
      var fields' := v.fields[i := (keys[0], UpdateAt(v.fields[i].1, keys[1..], nv))];
      SameKeysSameIndex(v.fields, fields', q[0]);
      if n > 0 {
        assert q[0] == keys[0] by { assert q[..n][0] == keys[..n][0]; }
        assert q[1..][..n - 1] == q[..n][1..];
        assert keys[1..][..n - 1] == keys[..n][1..];
        UpdateAtElsewhere(v.fields[i].1, keys[1..], nv, q[1..], n - 1);
      } else {
        assert IndexOf(v.fields, q[0]) != Some(i);
      }
    }
  }

  lemma SameKeysSameIndex(f1: seq<(string, Value)>, f2: seq<(string, Value)>, k: string)
    requires |f1| == |f2|
    requires forall j :: 0 <= j < |f1| ==> f1[j].0 == f2[j].0
    ensures IndexOf(f1, k) == IndexOf(f2, k)
  {
  }
}

=== FILE: facade.dfy ===
/**
  The `ResultFilter` facade: a document with a configured delimiter,
  `apply(path)` and `filter_on(path, target)`, with the two query
  exceptions turned into messages. Exceptions the facade does not catch
  come back as Raised.
 */
module Facade {
  import opened Json
  import opened Paths
  import opened Query
  import opened Mask
  import opened Applier

  datatype ResultFilter = ResultFilter(doc: Value, delim: char)

  /** What the facade hands back: a message, an encoded composite value,
      a bare scalar, or an exception that escaped it. */
  datatype Reply = Message(text: string) | Encoded(doc: Value) | Bare(leaf: Value) | Raised(crash: Crash)

  /** The bad-path message: a fixed 23-character lead-in followed by the
      path itself, so the path can be read back from the message. */
  function BadPathMessage(path: string): (m: string)
    ensures |m| == 23 + |path|
    ensures m[..23] == "Unable to filter using "
    ensures m[23..] == path
  {
    "Unable to filter using " + path
  }

  /** The clash message names the delimiter at position 20 of a message of
      fixed length. */
  function ClashMessage(d: char): (m: string)
    ensures |m| == 43
    ensures m[20] == d
    ensures m[..20] == "Criteria delimiter [" && m[21..] == "] is a key in document"
  {
    "Criteria delimiter [" + [d] + "] is a key in document"
  }

  /** Different paths give different bad-path messages, and different
      delimiters give different clash messages. */
  lemma MessagesNameTheirCause(p: string, q: string, d: char, e: char)
    ensures BadPathMessage(p) == BadPathMessage(q) ==> p == q
    ensures ClashMessage(d) == ClashMessage(e) ==> d == e
  {
  }

  /** `ResultFilter.apply(criteria)`. */
  function Apply(rf: ResultFilter, path: string): (r: Reply)
    ensures !r.Raised?
  {
    match ApplyCriteria(path, rf.delim, rf.doc)
    case BadPath => Message(BadPathMessage(path))
    case Clash => Message(ClashMessage(rf.delim))
    case Composite(v) => Encoded(v)
    case Scalar(v) => Bare(v)
  }

  /** `ResultFilter.filter_on(filter_path, target)`. The clash handler of
      the source is never reached: neither create_filter nor apply_filter
      raises CriteriaDelimiterClash, so every message is the bad-path one. */
  function FilterOn(rf: ResultFilter, path: string, target: Value): (r: Reply)
    ensures r.Message? ==> r.text == BadPathMessage(path)
    ensures !r.Bare?
  {
    var mask := CreateFilter(path, target, rf.doc);
    match ApplyFilter(mask, rf.doc)
    case BadPathError => Message(BadPathMessage(path))
    case Crashed(why) => Raised(why)
    case Filtered(v) => Encoded(v)
  }

  // ---------------------------------------------------------------------
  // apply

  /** The two messages can be told apart. */
  lemma MessagesDiffer(path: string, d: char)
    ensures BadPathMessage(path) != ClashMessage(d)
  {
    assert BadPathMessage(path)[0] == 'U';
    assert ClashMessage(d)[0] == 'C';
  }

  /** The error mapping of apply: a bad path gives the bad-path message
      naming the path, a clash gives the clash message naming the
      delimiter, and a successful query gives the encoded composite or the
      bare scalar, according to its shape. */
  lemma ApplyReplies(rf: ResultFilter, path: string)
    ensures var e := Eval(Criteria(path, rf.delim), rf.doc, rf.delim);
            && (Apply(rf, path) == Message(BadPathMessage(path)) <==> e == Err(BadCriteria))
            && (Apply(rf, path) == Message(ClashMessage(rf.delim)) <==> e == Err(DelimiterClash))
            && (Apply(rf, path).Encoded? <==> e.Ok? && IsComposite(e.value))
            && (Apply(rf, path).Bare? <==> e.Ok? && !IsComposite(e.value))
            && (e.Ok? ==> Apply(rf, path) == Encoded(e.value) || Apply(rf, path) == Bare(e.value))
  {
    MessagesDiffer(path, rf.delim);
  }

  /** `'*'` gives back the whole document. */
  lemma ApplyStar(rf: ResultFilter)
    ensures Apply(rf, Everything) == (if IsComposite(rf.doc) then Encoded(rf.doc) else Bare(rf.doc))
  {
    StarSelectsDocument(rf.delim, rf.doc);
  }

  /** A document whose keys avoid the delimiter never yields the clash
      message, and two such delimiters give the same answer for two paths
      that split into the same segments. */
  lemma DelimiterFreeDocumentResolves(doc: Value, d1: char, d2: char, path1: string, path2: string)
    requires KeysAvoid(doc, d1) && KeysAvoid(doc, d2)
    requires path1 != Everything && path2 != Everything
    requires Split(path1, d1) == Split(path2, d2)
    ensures Apply(ResultFilter(doc, d1), path1) != Message(ClashMessage(d1))
    ensures Apply(ResultFilter(doc, d1), path1).Encoded? <==> Apply(ResultFilter(doc, d2), path2).Encoded?
    ensures Apply(ResultFilter(doc, d1), path1).Bare? <==> Apply(ResultFilter(doc, d2), path2).Bare?
    ensures Apply(ResultFilter(doc, d1), path1).Encoded? ==> Apply(ResultFilter(doc, d1), path1) == Apply(ResultFilter(doc, d2), path2)
    ensures Apply(ResultFilter(doc, d1), path1).Bare? ==> Apply(ResultFilter(doc, d1), path1) == Apply(ResultFilter(doc, d2), path2)
  {
    var segs := Split(path1, d1);
    ClashNeedsDelimiterInKey(segs, doc, d1);
    DelimiterOnlyMattersForClash(segs, doc, d1, d2);
    MessagesDiffer(path1, d1);
  }

  // ---------------------------------------------------------------------
  // filter_on

  /** Whenever the walk of apply_filter finds its list, the literal mask
      built by create_filter is a list of exactly that length. */
  lemma {:induction false} ReduceReachesList(target: Value, x: Value, crit: seq<string>, idx: nat)
    requires idx <= |crit|
    requires FirstList(crit[idx..], x).ListAt?
    ensures Reduce(target, x, crit, idx).0.Arr?
    ensures |Reduce(target, x, crit, idx).0.elems| == |FirstList(crit[idx..], x).elems|
    decreases |crit| - idx
  {
    var rest := crit[idx..];
    assert rest[0] == crit[idx] && rest[1..] == crit[idx + 1..];
    if !x.Arr? {
      var child := Lookup(x.fields, crit[idx]).value;
      assert FirstList(rest[1..], child).ListAt?;
      assert IsComposite(child);
      assert Lfunc(target, x, crit[idx], crit) == (child, crit);
      ReduceStep(target, x, crit, idx, child, crit);
      ReduceReachesList(target, child, crit, idx + 1);
    }
  }

  /** The only exception filter_on lets escape is the IndexError of a path
      that reaches no list with a segment left: the mask always has the
      length the assertion demands and `remove` always finds its element.
      A missing key on the way is the bad-path message. */
  lemma FilterOnOutcome(rf: ResultFilter, path: string, target: Value)
    ensures var t := FirstList(Split(path, MaskDelimiter), rf.doc);
            && (FilterOn(rf, path, target) == Message(BadPathMessage(path)) <==> t == Missing)
            && (FilterOn(rf, path, target) == Raised(NoListReached) <==> t == NoList)
            && (FilterOn(rf, path, target).Encoded? <==> t.ListAt?)
  {
    var mask := CreateFilter(path, target, rf.doc);
    var c := Split(path, MaskDelimiter);
    var t := FirstList(c, rf.doc);
    assert mask.path == c;
    if t.ListAt? {
      assert c[0..] == c;
      ReduceReachesList(target, rf.doc, c, 0);
      assert mask.truths == Reduce(target, rf.doc, c, 0).0;
      assert ApplyFilter(mask, rf.doc).Filtered?;
    }
  }

  /** Flags of a mask of Bools are the Bools. */
  lemma FlagsOfBools(bs: seq<bool>)
    ensures Flags(Arr(seq(|bs|, i requires 0 <= i < |bs| => Bool(bs[i])))) == Some(bs)
  {
    var ts := seq(|bs|, i requires 0 <= i < |bs| => Bool(bs[i]));
    var fl := Flags(Arr(ts)).value;
    assert |fl| == |bs|;
    assert forall i :: 0 <= i < |bs| ==> fl[i] == Truthy(ts[i]) == bs[i];
    assert fl == bs;
  }

  /** Whether element `item` matches: its value at `rest` is the target. */
  function Matches(items: seq<Value>, rest: seq<string>, target: Value): (bs: seq<bool>)
    ensures |bs| == |items|
    ensures forall i :: 0 <= i < |items| ==> bs[i] == (At(items[i], rest) == Some(target))
  {
    seq(|items|, i requires 0 <= i < |items| => At(items[i], rest) == Some(target))
  }

  /** Along the leaf sub-path shape, the probes of the elements are the
      Bools of Matches. */
  lemma ProbesAreMatches(target: Value, items: seq<Value>, rest: seq<string>)
    requires forall i :: 0 <= i < |items| ==> EndsAtLeafOrGap(items[i], rest)
    ensures forall i :: 0 <= i < |items| ==>
              && ArrayFree(target, items[i], rest)
              && !IsComposite(Probe(target, items[i], rest))
    ensures Flags(Arr(Probes(target, items, rest))) == Some(Matches(items, rest, target))
  {
    forall i | 0 <= i < |items|
      ensures ArrayFree(target, items[i], rest)
      ensures Probe(target, items[i], rest) == Bool(At(items[i], rest) == Some(target))
    {
      ProbeIsEquality(target, items[i], rest);
    }
    var bs := Matches(items, rest, target);
    assert Probes(target, items, rest) == seq(|bs|, i requires 0 <= i < |bs| => Bool(bs[i]));
    FlagsOfBools(bs);
  }

  /** Equal elements have equal values at any path, so the flags of
      Matches give equal elements the same flag. */
  lemma MatchesConsistent(items: seq<Value>, rest: seq<string>, target: Value)
    ensures Consistent(items, Matches(items, rest, target))
  {
  }

  /** The last stage of filter_on on the usual shape, given the flags. */
  lemma FilterWithFlags(rf: ResultFilter, mask: FilterMask, keys: seq<string>, items: seq<Value>, flags: seq<bool>)
    requires FirstList(mask.path, rf.doc) == ListAt(keys, items)
    requires mask.truths.Arr? && |mask.truths.elems| == |items|
    requires Flags(mask.truths) == Some(flags) && Consistent(items, flags)
    ensures ApplyFilter(mask, rf.doc) == Filtered(UpdateAt(rf.doc, keys, Arr(Keep(items, flags))))
  {
  }

  /** On the usual shape, the mask's truth values are the Matches flags. */
  lemma FlagsUnderRoot(path: string, target: Value, fields: seq<(string, Value)>, items: seq<Value>)
    requires |Split(path, MaskDelimiter)| >= 2
    requires Lookup(fields, Split(path, MaskDelimiter)[0]) == Some(Arr(items))
    requires forall i :: 0 <= i < |items| ==> EndsAtLeafOrGap(items[i], Split(path, MaskDelimiter)[1..])
    ensures CreateFilter(path, target, Obj(fields)).truths.Arr?
    ensures |CreateFilter(path, target, Obj(fields)).truths.elems| == |items|
    ensures Flags(CreateFilter(path, target, Obj(fields)).truths) == Some(Matches(items, Split(path, MaskDelimiter)[1..], target))
  {
    ProbesAreMatches(target, items, Split(path, MaskDelimiter)[1..]);
    MaskForArrayUnderRoot(path, target, fields, items);
  }

  /** A path whose first segment names an array under the root reaches
      that array, with a segment left. */
  lemma FirstListUnderRoot(c: seq<string>, fields: seq<(string, Value)>, items: seq<Value>)
    requires |c| >= 2 && Lookup(fields, c[0]) == Some(Arr(items))
    ensures FirstList(c, Obj(fields)) == ListAt([c[0]], items)
  {
    assert FirstList(c[1..], Arr(items)) == ListAt([], items);
    assert [c[0]] + [] == [c[0]];
  }

  /** The usual use of filter_on: the first segment names an array under
      the root object, and the rest of the path leads from each element
      through objects to a scalar (or to a missing key). The array is
      replaced by the elements whose value at the rest of the path equals
      the target, in their original order, and nothing else changes. */
  lemma FilterOnArrayUnderRoot(rf: ResultFilter, path: string, target: Value, fields: seq<(string, Value)>, items: seq<Value>)
    requires rf.doc == Obj(fields)
    requires |Split(path, MaskDelimiter)| >= 2
    requires Lookup(fields, Split(path, MaskDelimiter)[0]) == Some(Arr(items))
    requires forall i :: 0 <= i < |items| ==> EndsAtLeafOrGap(items[i], Split(path, MaskDelimiter)[1..])
    ensures FilterOn(rf, path, target) ==
              Encoded(UpdateAt(rf.doc, [Split(path, MaskDelimiter)[0]],
                               Arr(Keep(items, Matches(items, Split(path, MaskDelimiter)[1..], target)))))
  {
    var c := Split(path, MaskDelimiter);
    var rest := c[1..];
    FlagsUnderRoot(path, target, fields, items);
    var mask := CreateFilter(path, target, rf.doc);
    var flags := Matches(items, rest, target);
    MatchesConsistent(items, rest, target);
    FirstListUnderRoot(c, fields, items);
    FilterWithFlags(rf, mask, [c[0]], items, flags);
  }

  /** Over a list of strings, numbers or nulls under the root, every
      entry of the mask is None. */
  lemma ScalarsMask(path: string, target: Value, fields: seq<(string, Value)>, items: seq<Value>)
    requires |Split(path, MaskDelimiter)| >= 2
    requires Lookup(fields, Split(path, MaskDelimiter)[0]) == Some(Arr(items))
    requires forall i :: 0 <= i < |items| ==> items[i].Str? || items[i].Num? || items[i].Null?
    ensures CreateFilter(path, target, Obj(fields)).truths.Arr?
    ensures |CreateFilter(path, target, Obj(fields)).truths.elems| == |items|
    ensures forall i :: 0 <= i < |items| ==> CreateFilter(path, target, Obj(fields)).truths.elems[i] == Null
  {
    var rest := Split(path, MaskDelimiter)[1..];
    forall i | 0 <= i < |items|
      ensures ArrayFree(target, items[i], rest) && Probe(target, items[i], rest) == Null
    {
      OtherScalarProbesNull(target, items[i], rest);
    }
    MaskForArrayUnderRoot(path, target, fields, items);
  }

  /** A mask of Nones flags nothing. */
  lemma NullsFlagNothing(ts: seq<Value>)
    requires forall i :: 0 <= i < |ts| ==> ts[i] == Null
    ensures Flags(Arr(ts)).Some? && |Flags(Arr(ts)).value| == |ts|
    ensures forall i :: 0 <= i < |ts| ==> !Flags(Arr(ts)).value[i]
  {
  }

  /** Filtering a list of strings, numbers or nulls: lfunc gives None for
      each element, since a segment is left, so every mask entry is falsy
      and the list is emptied, whatever the target. */
  lemma FilterOnScalarsEmpties(rf: ResultFilter, path: string, target: Value, fields: seq<(string, Value)>, items: seq<Value>)
    requires rf.doc == Obj(fields)
    requires |Split(path, MaskDelimiter)| >= 2
    requires Lookup(fields, Split(path, MaskDelimiter)[0]) == Some(Arr(items))
    requires forall i :: 0 <= i < |items| ==> items[i].Str? || items[i].Num? || items[i].Null?
    ensures FilterOn(rf, path, target) == Encoded(UpdateAt(rf.doc, [Split(path, MaskDelimiter)[0]], Arr([])))
  {
    var c := Split(path, MaskDelimiter);
    var mask := CreateFilter(path, target, rf.doc);
    ScalarsMask(path, target, fields, items);
    NullsFlagNothing(mask.truths.elems);
    assert mask.truths == Arr(mask.truths.elems);
    var flags := Flags(mask.truths).value;
    assert Keep(items, flags) == [];
    assert Consistent(items, flags);
    FirstListUnderRoot(c, fields, items);
    FilterWithFlags(rf, mask, [c[0]], items, flags);
  }

  /** A quirk of the shared segment list: on a root array the first
      segment is skipped, and the elements are filtered on the rest. */
  lemma FilterOnRootArray(rf: ResultFilter, path: string, target: Value, items: seq<Value>)
    requires rf.doc == Arr(items)
    requires |Split(path, MaskDelimiter)| >= 2
    requires forall i :: 0 <= i < |items| ==> EndsAtLeafOrGap(items[i], Split(path, MaskDelimiter)[1..])
    ensures FilterOn(rf, path, target) ==
              Encoded(Arr(Keep(items, Matches(items, Split(path, MaskDelimiter)[1..], target))))
  {
    var c := Split(path, MaskDelimiter);
    var rest := c[1..];
    ProbesAreMatches(target, items, rest);
    MaskForRootArray(path, target, items);
    var mask := CreateFilter(path, target, rf.doc);
    var flags := Matches(items, rest, target);
    assert Flags(mask.truths) == Some(flags);
    MatchesConsistent(items, rest, target);
    assert FirstList(c, rf.doc) == ListAt([], items);
    FilterWithFlags(rf, mask, [], items, flags);
  }
}

=== FILE: json.dfy ===
/**
  The decoded JSON document that every query walks.

  A decoded object is a Python dict; here it is a sequence of key/value
  pairs. Lookup takes the first pair whose key matches, which is the only
  pair when the keys are distinct, as they are in any decoded document.
  Numbers are integers and strings are sequences of characters; the codec
  that turns text into a Value (and back) is not part of this model.
 */
module Json {

  datatype Option<+T> = None | Some(value: T)

  datatype Value =
    | Obj(fields: seq<(string, Value)>)
    | Arr(elems: seq<Value>)
    | Str(s: string)
    | Num(n: int)
    | Bool(b: bool)
    | Null

  /** Objects and arrays are composite; everything else is a scalar. */
  predicate IsComposite(v: Value) {
    v.Obj? || v.Arr?
  }

  /** Position of the first pair whose key is `k`. */
  function IndexOf(fields: seq<(string, Value)>, k: string): (r: Option<nat>)
    ensures r.Some? ==> r.value < |fields| && fields[r.value].0 == k
    ensures r.Some? ==> forall j :: 0 <= j < r.value ==> fields[j].0 != k
    ensures r.None? ==> forall j :: 0 <= j < |fields| ==> fields[j].0 != k
  {
    if |fields| == 0 then None
    else if fields[0].0 == k then Some(0)
    else
      match IndexOf(fields[1..], k)
      case None => None
      case Some(i) => Some(i + 1)
  }

  /** `jv[k]` on a dict: the value stored under `k`, if any. */
  function Lookup(fields: seq<(string, Value)>, k: string): (r: Option<Value>)
    ensures r.Some? <==> exists j :: 0 <= j < |fields| && fields[j].0 == k
    ensures r.Some? ==> exists j :: 0 <= j < |fields| && fields[j] == (k, r.value)
  {
    match IndexOf(fields, k)
    case None => None
    case Some(i) => Some(fields[i].1)
  }

  /** Python truthiness of a decoded value. */
  predicate Truthy(v: Value) {
    match v
    case Obj(fields) => |fields| > 0
    case Arr(elems) => |elems| > 0
    case Str(s) => |s| > 0
    case Num(n) => n != 0
    case Bool(b) => b
    case Null => false
  }

  /** Plain navigation through objects along `keys`; None when a key is
      missing or a non-object stands in the way. */
  function At(v: Value, keys: seq<string>): Option<Value>
    decreases |keys|
  {
    if |keys| == 0 then Some(v)
    else if !v.Obj? then None
    else
      match Lookup(v.fields, keys[0])
      case None => None
      case Some(child) => At(child, keys[1..])
  }

  /** True when no key of any object anywhere in `v` contains `d`. */
  predicate KeysAvoid(v: Value, d: char) {
    match v
    case Obj(fields) =>
      forall i :: 0 <= i < |fields| ==> d !in fields[i].0 && KeysAvoid(fields[i].1, d)
    case Arr(elems) =>
      forall i :: 0 <= i < |elems| ==> KeysAvoid(elems[i], d)
    case _ => true
  }
}

=== FILE: mask.dfy ===
/**
  The filter-mask builder `create_filter`, modelled literally.

  The source folds `lfunc` over a criteria list with `reduce`, and `lfunc`
  itself pops the head of that same list whenever it stands on an array,
  then starts fresh folds over what is left, one per element. A fold
  walks the list the way Python's list iterator does: it keeps an index
  and re-reads the current length before every step, so a pop made inside
  one step shifts what the later steps see. Here the shared list is passed
  in and handed back by every call, and the iterator is the `idx`
  parameter of Reduce.

  The values `lfunc` produces are Values too: Python's True and False are
  Bool, None is Null, and a list of per-element results is an Arr.
 */
module Mask {
  import opened Json
  import opened Paths

  /** create_filter always splits on a full stop, whatever delimiter the
      facade was configured with. */
  const MaskDelimiter: char := '.'

  /** The result of create_filter: the path (split afresh) and the truths. */
  datatype FilterMask = FilterMask(path: seq<string>, truths: Value)

  /** `b` is what is left of `a` after popping some of its head elements. */
  predicate IsSuffix(b: seq<string>, a: seq<string>) {
    |b| <= |a| && b == a[|a| - |b|..]
  }

  /** One `lfunc` step on anything but an array. */
  function MaskStep(target: Value, x: Value, y: string): (r: Value)
    requires !x.Arr?
    ensures r.Bool? || r.Null? || IsComposite(r)
  {
    match x
    case Obj(fields) =>
      (match Lookup(fields, y)
       case None => Bool(false)
       case Some(v) => if IsComposite(v) then v else Bool(v == target))
    case Bool(_) => x
    case _ => Null
  }

  /** `lfunc(target, x, y)` with the shared criteria list `crit`; `y` was
      read from `crit` just before the call, so `crit` is not empty. */
  function Lfunc(target: Value, x: Value, y: string, crit: seq<string>): (r: (Value, seq<string>))
    requires |crit| > 0
    ensures IsSuffix(r.1, crit)
    ensures x.Arr? ==> r.0.Arr? && |r.0.elems| == |x.elems| && |r.1| < |crit|
    ensures !x.Arr? ==> r == (MaskStep(target, x, y), crit)
    decreases |crit|, 0, 0
  {
    if x.Arr? then
      var (results, crit') := ReduceEach(target, x.elems, crit[1..]);
      (Arr(results), crit')
    else
      (MaskStep(target, x, y), crit)
  }

  /** `reduce(lfunc, crit, x)` resumed with the iterator at `idx`. */
  function Reduce(target: Value, x: Value, crit: seq<string>, idx: nat): (r: (Value, seq<string>))
    ensures IsSuffix(r.1, crit)
    ensures x.Arr? ==> r.0.Arr? && |r.0.elems| == |x.elems|
    decreases |crit|, 1, if idx <= |crit| then |crit| - idx else 0
  {
    if idx < |crit| then
      var (x', crit') := Lfunc(target, x, crit[idx], crit);
      Reduce(target, x', crit', idx + 1)
    else
      (x, crit)
  }

  /** The loop `for item in x: results.append(reduce(lfunc, criteria, item))`:
      each fold starts a new iterator on the list as the previous fold left it. */
  function ReduceEach(target: Value, items: seq<Value>, crit: seq<string>): (r: (seq<Value>, seq<string>))
    ensures |r.0| == |items|
    ensures IsSuffix(r.1, crit)
    decreases |crit|, 2, |items|
  {
    if |items| == 0 then ([], crit)
    else
      var (first, crit1) := Reduce(target, items[0], crit, 0);
      var (rest, crit2) := ReduceEach(target, items[1..], crit1);
      ([first] + rest, crit2)
  }

  /** `create_filter(path, target, doc)`. */
  function CreateFilter(path: string, target: Value, doc: Value): (m: FilterMask)
    ensures m.path == Split(path, MaskDelimiter)
    ensures doc.Arr? ==> m.truths.Arr? && |m.truths.elems| == |doc.elems|
  {
    var criteria := Split(path, MaskDelimiter);
    FilterMask(Split(path, MaskDelimiter), Reduce(target, doc, criteria, 0).0)
  }

  /** One step of the fold, given what lfunc returns. */
  lemma ReduceStep(target: Value, x: Value, crit: seq<string>, idx: nat, x': Value, crit': seq<string>)
    requires idx < |crit| && Lfunc(target, x, crit[idx], crit) == (x', crit')
    ensures Reduce(target, x, crit, idx) == Reduce(target, x', crit', idx + 1)
  {
  }

  /** The fold ends when the iterator has passed the end of the list. */
  lemma ReduceDone(target: Value, x: Value, crit: seq<string>, idx: nat)
    requires idx >= |crit|
    ensures Reduce(target, x, crit, idx) == (x, crit)
  {
  }

  /** One unfolding of lfunc on a list. */
  lemma LfuncOnList(target: Value, items: seq<Value>, y: string, crit: seq<string>)
    requires |crit| > 0
    ensures Lfunc(target, Arr(items), y, crit) ==
              (Arr(ReduceEach(target, items, crit[1..]).0), ReduceEach(target, items, crit[1..]).1)
  {
  }

  /** The loop over no items leaves the list alone. */
  lemma ReduceEachDone(target: Value, crit: seq<string>)
    ensures ReduceEach(target, [], crit) == ([], crit)
  {
  }

  /** One unfolding of the loop over the items, given what its two parts
      return. */
  lemma ReduceEachStep(target: Value, items: seq<Value>, crit: seq<string>,
                       first: Value, crit1: seq<string>, rest: seq<Value>, crit2: seq<string>)
    requires |items| > 0
    requires Reduce(target, items[0], crit, 0) == (first, crit1)
    requires ReduceEach(target, items[1..], crit1) == (rest, crit2)
    ensures ReduceEach(target, items, crit) == ([first] + rest, crit2)
  {
  }

  // ---------------------------------------------------------------------
  // The clean meaning, for paths that meet no array.

  /** Walking `x` along `segs` never stands on an array with a segment
      left. Whether a step lands on an array does not depend on `target`:
      only a Bool can come out of the comparison. */
  predicate ArrayFree(target: Value, x: Value, segs: seq<string>)
    decreases |segs|
  {
    |segs| == 0 || (!x.Arr? && ArrayFree(target, MaskStep(target, x, segs[0]), segs[1..]))
  }

  /** The leaf rules of lfunc folded over `segs` when no array is met. */
  function Probe(target: Value, x: Value, segs: seq<string>): (r: Value)
    requires ArrayFree(target, x, segs)
    ensures |segs| > 0 ==> r.Bool? || r.Null? || IsComposite(r)
    decreases |segs|
  {
    if |segs| == 0 then x else Probe(target, MaskStep(target, x, segs[0]), segs[1..])
  }

  /** Along an array-free path the literal fold pops nothing and computes
      the probe. */
  lemma {:induction false} ReduceArrayFree(target: Value, x: Value, crit: seq<string>, idx: nat)
    requires idx <= |crit|
    requires ArrayFree(target, x, crit[idx..])
    ensures Reduce(target, x, crit, idx) == (Probe(target, x, crit[idx..]), crit)
    decreases |crit| - idx
  {
    if idx < |crit| {
      var x' := MaskStep(target, x, crit[idx]);
      assert crit[idx..][0] == crit[idx];
      assert crit[idx..][1..] == crit[idx + 1..];
      ReduceStep(target, x, crit, idx, x', crit);
      ReduceArrayFree(target, x', crit, idx + 1);
    } else {
      ReduceDone(target, x, crit, idx);
    }
  }

  /** A Bool or None passes through every later lfunc step untouched. */
  lemma {:induction false} ReduceFlat(target: Value, t: Value, crit: seq<string>, idx: nat)
    requires t.Bool? || t.Null?
    ensures Reduce(target, t, crit, idx) == (t, crit)
    decreases if idx <= |crit| then |crit| - idx else 0
  {
    if idx < |crit| {
      assert MaskStep(target, t, crit[idx]) == t;
      ReduceStep(target, t, crit, idx, t, crit);
      ReduceFlat(target, t, crit, idx + 1);
    } else {
      ReduceDone(target, t, crit, idx);
    }
  }

  lemma {:induction false} ReduceEachFlat(target: Value, ts: seq<Value>, crit: seq<string>)
    requires forall i :: 0 <= i < |ts| ==> ts[i].Bool? || ts[i].Null?
    ensures ReduceEach(target, ts, crit) == (ts, crit)
    decreases |ts|
  {
    if |ts| > 0 {
      ReduceFlat(target, ts[0], crit, 0);
      assert forall i :: 0 <= i < |ts[1..]| ==> ts[1..][i] == ts[i + 1];
      ReduceEachFlat(target, ts[1..], crit);
      ReduceEachStep(target, ts, crit, ts[0], crit, ts[1..], crit);
      assert [ts[0]] + ts[1..] == ts;
    } else {
      ReduceEachDone(target, crit);
    }
  }

  /** Later segments that reach an array of Bool/None entries pop the
      shared list but leave the entries as they are. */
  lemma {:induction false} ReduceFlatArray(target: Value, ts: seq<Value>, crit: seq<string>, idx: nat)
    requires forall i :: 0 <= i < |ts| ==> ts[i].Bool? || ts[i].Null?
    ensures Reduce(target, Arr(ts), crit, idx).0 == Arr(ts)
    decreases |crit|
  {
    if idx < |crit| {
      ReduceEachFlat(target, ts, crit[1..]);
      LfuncOnList(target, ts, crit[idx], crit);
      ReduceStep(target, Arr(ts), crit, idx, Arr(ts), crit[1..]);
      ReduceFlatArray(target, ts, crit[1..], idx + 1);
    } else {
      ReduceDone(target, Arr(ts), crit, idx);
    }
  }

  /** The probes of the elements of an array, one entry per element. */
  function Probes(target: Value, items: seq<Value>, rest: seq<string>): (ts: seq<Value>)
    requires forall i :: 0 <= i < |items| ==> ArrayFree(target, items[i], rest)
    ensures |ts| == |items|
    ensures forall i :: 0 <= i < |items| ==> ts[i] == Probe(target, items[i], rest)
  {
    seq(|items|, i requires 0 <= i < |items| => Probe(target, items[i], rest))
  }

  lemma ProbesCons(target: Value, items: seq<Value>, rest: seq<string>)
    requires |items| > 0
    requires forall i :: 0 <= i < |items| ==> ArrayFree(target, items[i], rest)
    ensures forall i :: 0 <= i < |items[1..]| ==> ArrayFree(target, items[1..][i], rest)
    ensures [Probe(target, items[0], rest)] + Probes(target, items[1..], rest) == Probes(target, items, rest)
  {
    assert forall i :: 0 <= i < |items[1..]| ==> items[1..][i] == items[i + 1];
    var l := [Probe(target, items[0], rest)] + Probes(target, items[1..], rest);
    assert forall i :: 0 <= i < |items| ==> l[i] == Probes(target, items, rest)[i];
  }

  lemma {:induction false} ReduceEachArrayFree(target: Value, items: seq<Value>, crit: seq<string>)
    requires forall i :: 0 <= i < |items| ==> ArrayFree(target, items[i], crit)
    ensures ReduceEach(target, items, crit) == (Probes(target, items, crit), crit)
    decreases |items|
  {
    if |items| == 0 {
      ReduceEachDone(target, crit);
    } else {
      var first := Probe(target, items[0], crit);
      assert crit[0..] == crit;
      ReduceArrayFree(target, items[0], crit, 0);
      assert forall i :: 0 <= i < |items[1..]| ==> items[1..][i] == items[i + 1];
      ReduceEachArrayFree(target, items[1..], crit);
      ReduceEachStep(target, items, crit, first, crit, Probes(target, items[1..], crit), crit);
      ProbesCons(target, items, crit);
    }
  }

  /** The shape the filter is meant for: the first segment names an array
      under the root object, and from each element the rest of the path
      meets no further array and ends at a scalar or a missing key. Then
      the truths hold exactly one entry per element, the probe of that
      element along the rest of the path. */
  lemma MaskForArrayUnderRoot(path: string, target: Value, fields: seq<(string, Value)>, items: seq<Value>)
    requires |Split(path, MaskDelimiter)| >= 2
    requires Lookup(fields, Split(path, MaskDelimiter)[0]) == Some(Arr(items))
    requires forall i :: 0 <= i < |items| ==>
               && ArrayFree(target, items[i], Split(path, MaskDelimiter)[1..])
               && !IsComposite(Probe(target, items[i], Split(path, MaskDelimiter)[1..]))
    ensures CreateFilter(path, target, Obj(fields)).truths ==
              Arr(Probes(target, items, Split(path, MaskDelimiter)[1..]))
  {
    var c := Split(path, MaskDelimiter);
    var rest := c[1..];
    assert Lfunc(target, Obj(fields), c[0], c) == (Arr(items), c);
    assert Reduce(target, Obj(fields), c, 0) == Reduce(target, Arr(items), c, 1);
    ReduceEachArrayFree(target, items, rest);
    var ts := Probes(target, items, rest);
    assert Lfunc(target, Arr(items), c[1], c) == (Arr(ts), rest);
    assert Reduce(target, Arr(items), c, 1) == Reduce(target, Arr(ts), rest, 2);
    ReduceFlatArray(target, ts, rest, 2);
  }

  /** A quirk of the shared list: when the root itself is an array, the
      first segment is popped without being used, and each element is
      probed along the rest of the path. */
  lemma MaskForRootArray(path: string, target: Value, items: seq<Value>)
    requires forall i :: 0 <= i < |items| ==>
               && ArrayFree(target, items[i], Split(path, MaskDelimiter)[1..])
               && !IsComposite(Probe(target, items[i], Split(path, MaskDelimiter)[1..]))
    ensures CreateFilter(path, target, Arr(items)).truths ==
              Arr(Probes(target, items, Split(path, MaskDelimiter)[1..]))
  {
    var c := Split(path, MaskDelimiter);
    var rest := c[1..];
    ReduceEachArrayFree(target, items, rest);
    var ts := Probes(target, items, rest);
    assert Lfunc(target, Arr(items), c[0], c) == (Arr(ts), rest);
    assert Reduce(target, Arr(items), c, 0) == Reduce(target, Arr(ts), rest, 1);
    if |rest| > 0 {
      ReduceFlatArray(target, ts, rest, 1);
    }
  }

  /** The leaf sub-path shape: from an object, each segment finds either
      nothing or an object, except the last, which finds a scalar. */
  predicate EndsAtLeafOrGap(x: Value, segs: seq<string>)
    decreases |segs|
  {
    && |segs| > 0
    && x.Obj?
    && match Lookup(x.fields, segs[0])
       case None => true
       case Some(v) => if |segs| == 1 then !IsComposite(v) else v.Obj? && EndsAtLeafOrGap(v, segs[1..])
  }

  /** A None that lfunc produced stays None through every later segment. */
  lemma {:induction false} NullPassesThrough(target: Value, segs: seq<string>)
    ensures ArrayFree(target, Null, segs)
    ensures Probe(target, Null, segs) == Null
    decreases |segs|
  {
    if |segs| > 0 {
      NullPassesThrough(target, segs[1..]);
    }
  }

  /** lfunc falls through to None on a string, a number or None with a
      segment still to apply, and that None survives the rest of the path:
      an element that is such a scalar probes to None, which is falsy. */
  lemma {:induction false} OtherScalarProbesNull(target: Value, x: Value, segs: seq<string>)
    requires x.Str? || x.Num? || x.Null?
    requires |segs| > 0
    ensures ArrayFree(target, x, segs)
    ensures Probe(target, x, segs) == Null
    ensures !Truthy(Probe(target, x, segs))
  {
    assert MaskStep(target, x, segs[0]) == Null;
    NullPassesThrough(target, segs[1..]);
  }

  /** Once a comparison has produced a Bool, later segments keep it. */
  lemma {:induction false} BoolPassesThrough(target: Value, b: bool, segs: seq<string>)
    ensures ArrayFree(target, Bool(b), segs)
    ensures Probe(target, Bool(b), segs) == Bool(b)
    decreases |segs|
  {
    if |segs| > 0 {
      BoolPassesThrough(target, b, segs[1..]);
    }
  }

  /** The leaf rules of lfunc, read along a whole sub-path: the entry is
      True exactly when the value at the sub-path is the target, and a
      missing key anywhere is a non-match rather than an error. */
  lemma {:induction false} ProbeIsEquality(target: Value, x: Value, segs: seq<string>)
    requires EndsAtLeafOrGap(x, segs)
    ensures ArrayFree(target, x, segs)
    ensures Probe(target, x, segs) == Bool(At(x, segs) == Some(target))
    decreases |segs|
  {
    match Lookup(x.fields, segs[0])
    case None =>
      BoolPassesThrough(target, false, segs[1..]);
    case Some(v) =>
      if |segs| == 1 {
        assert segs[1..] == [];
      } else {
        ProbeIsEquality(target, v, segs[1..]);
      }
  }
}

=== FILE: path.dfy ===
/**
  Turning a criteria string into the list of segments a query consumes:
  Python's `str.split` on a single delimiter character, and the `'*'`
  sentinel that selects the whole document.
 */
module Paths {

  /** The sentinel path that selects the whole document. */
  const Everything: string := "*"

  /** Glue the segments back together with `d` between them. */
  function Join(parts: seq<string>, d: char): string
    requires |parts| >= 1
  {
    if |parts| == 1 then parts[0] else parts[0] + [d] + Join(parts[1..], d)
  }

  /** `s.split(d)`: every occurrence of `d` separates two segments, so
      empty segments survive and there is always at least one. */
  function Split(s: string, d: char): (parts: seq<string>)
    ensures |parts| >= 1
    ensures forall i :: 0 <= i < |parts| ==> d !in parts[i]
    ensures Join(parts, d) == s
  {
    if |s| == 0 then [""]
    else
      var rest := Split(s[1..], d);
      if s[0] == d then
        [""] + rest
      else
        [[s[0]] + rest[0]] + rest[1..]
  }

  /** The segments a query walks: none for `'*'`, otherwise the split. */
  function Criteria(path: string, d: char): (segs: seq<string>)
    ensures path == Everything ==> segs == []
    ensures path != Everything ==> |segs| >= 1 && Join(segs, d) == path
    ensures forall i :: 0 <= i < |segs| ==> d !in segs[i]
  {
    if path == Everything then [] else Split(path, d)
  }

  /** A leading delimiter closes an empty first segment. */
  lemma SplitAfterDelimiter(t: string, d: char)
    ensures Split([d] + t, d) == [""] + Split(t, d)
  {
    assert ([d] + t)[1..] == t;
  }

  /** A leading ordinary character opens the first segment. */
  lemma SplitAfterChar(c: char, t: string, d: char)
    requires c != d
    ensures Split([c] + t, d) == [[c] + Split(t, d)[0]] + Split(t, d)[1..]
  {
    assert ([c] + t)[1..] == t;
  }

  /** Join of a list whose first segment is empty starts with the delimiter. */
  lemma JoinEmptyHead(parts: seq<string>, d: char)
    requires |parts| >= 2 && parts[0] == ""
    ensures Join(parts, d) == [d] + Join(parts[1..], d)
  {
    assert parts[0] + [d] == [d];
  }

  /** Join of a list whose first segment is not empty starts with that
      segment's first character, followed by the join with it removed. */
  lemma JoinCharHead(parts: seq<string>, d: char)
    requires |parts| >= 2 && |parts[0]| > 0
    ensures Join(parts, d) == [parts[0][0]] + Join([parts[0][1..]] + parts[1..], d)
  {
    var p := parts[0];
    var parts' := [p[1..]] + parts[1..];
    assert parts'[0] == p[1..] && parts'[1..] == parts[1..];
    assert p == [p[0]] + p[1..];
  }

  /** Split undoes Join whenever no segment contains the delimiter, so the
      split is the only delimiter-free segment list that joins to `s`. */
  lemma {:induction false} SplitJoin(parts: seq<string>, d: char)
    requires |parts| >= 1
    requires forall i :: 0 <= i < |parts| ==> d !in parts[i]
    ensures Split(Join(parts, d), d) == parts
    decreases |parts|, |parts[0]|
  {
    if |parts| == 1 {
      NoDelimiterIsOneSegment(parts[0], d);
    } else {
      var p := parts[0];
      if |p| == 0 {
        SplitJoin(parts[1..], d);
        JoinEmptyHead(parts, d);
        SplitAfterDelimiter(Join(parts[1..], d), d);
        assert [""] + parts[1..] == parts;
      } else {
        var parts' := [p[1..]] + parts[1..];
        assert parts'[1..] == parts[1..];
        assert d !in parts'[0] by {
          assert forall c :: c in p[1..] ==> c in p;
        }
        assert forall i :: 1 <= i < |parts'| ==> parts'[i] == parts[i];
        SplitJoin(parts', d);
        JoinCharHead(parts, d);
        assert p[0] != d by { assert p[0] in p; }
        SplitAfterChar(p[0], Join(parts', d), d);
        assert [p[0]] + p[1..] == p;
        assert [p] + parts[1..] == parts;
      }
    }
  }

  /** `segs` is a way of cutting `path` at the delimiter: delimiter-free
      segments that join back to it. */
  predicate SplitsTo(segs: seq<string>, path: string, d: char) {
    && |segs| >= 1
    && (forall i :: 0 <= i < |segs| ==> d !in segs[i])
    && Join(segs, d) == path
  }

  /** There is exactly one such cutting: the split. */
  lemma SplitIsUnique(path: string, d: char)
    ensures SplitsTo(Split(path, d), path, d)
    ensures forall segs :: SplitsTo(segs, path, d) ==> segs == Split(path, d)
  {
    forall segs | SplitsTo(segs, path, d)
      ensures segs == Split(path, d)
    {
      SplitJoin(segs, d);
    }
  }

  /** A string without the delimiter is a single segment. */
  lemma {:induction false} NoDelimiterIsOneSegment(s: string, d: char)
    requires d !in s
    ensures Split(s, d) == [s]
  {
    if |s| > 0 {
      assert forall c :: c in s[1..] ==> c in s;
      NoDelimiterIsOneSegment(s[1..], d);
      assert s[0] in s;
      assert [s[0]] + s[1..] == s;
    }
  }
}

=== FILE: query.dfy ===
/**
  The path evaluator behind `apply_criteria`: each segment is applied to
  the current value by `find`, left to right. Objects are checked for keys
  that contain the delimiter before the segment is looked up; arrays
  broadcast the segment to every element; scalars cannot be descended.
 */
module Query {
  import opened Json
  import opened Paths

  /** The two exceptions `find` raises. */
  datatype QueryError = BadCriteria | DelimiterClash

  datatype Found<+T> = Ok(value: T) | Err(error: QueryError)

  /** What `apply_criteria` hands back: the two exceptions, a composite
      value (which the source JSON-encodes) or a bare scalar. */
  datatype QueryResult = BadPath | Clash | Composite(doc: Value) | Scalar(leaf: Value)

  /** Some key at this object level contains the delimiter; then the
      document's keys do not avoid it. */
  predicate HasClash(fields: seq<(string, Value)>, d: char): (r: bool)
    ensures r ==> !KeysAvoid(Obj(fields), d)
  {
    exists i :: 0 <= i < |fields| && d in fields[i].0
  }

  /** The loop `for level_key in jv.keys()` that raises on the first key
      containing the delimiter, key by key. */
  predicate KeyLoop(fields: seq<(string, Value)>, d: char)
    decreases |fields|
  {
    |fields| > 0 && (d in fields[0].0 || KeyLoop(fields[1..], d))
  }

  /** The key loop raises exactly when some key contains the delimiter. */
  lemma {:induction false} HasClashIsKeyLoop(fields: seq<(string, Value)>, d: char)
    ensures KeyLoop(fields, d) <==> HasClash(fields, d)
    decreases |fields|
  {
    if |fields| > 0 {
      HasClashIsKeyLoop(fields[1..], d);
      if HasClash(fields[1..], d) {
        var i :| 0 <= i < |fields[1..]| && d in fields[1..][i].0;
        assert d in fields[i + 1].0;
      }
      if HasClash(fields, d) && d !in fields[0].0 {
        var i :| 0 <= i < |fields| && d in fields[i].0;
        assert d in fields[1..][i - 1].0;
      }
    }
  }

  /** `find(k, jv)`. */
  function Find(k: string, v: Value, d: char): (r: Found<Value>)
    ensures v.Obj? && !HasClash(v.fields, d) && Lookup(v.fields, k).Some? ==> r == Ok(Lookup(v.fields, k).value)
    ensures v.Obj? && !HasClash(v.fields, d) && Lookup(v.fields, k).None? ==> r == Err(BadCriteria)
    ensures r == Err(DelimiterClash) ==> !KeysAvoid(v, d)
    ensures r.Ok? && KeysAvoid(v, d) ==> KeysAvoid(r.value, d)
    ensures v.Arr? && r.Ok? ==> r.value.Arr? && |r.value.elems| == |v.elems|
    decreases v, 1
  {
    match v
    case Obj(fields) =>
      if HasClash(fields, d) then Err(DelimiterClash)
      else (
        match Lookup(fields, k)
        case None => Err(BadCriteria)
        case Some(child) => Ok(child)
      )
    case Arr(elems) =>
      (match FindEach(k, elems, d)
       case Err(e) => Err(e)
       case Ok(results) => Ok(Arr(results)))
    case _ => Err(BadCriteria)
  }

  /** The loop `for i in jv: results.append(find(k, i))`: the first element
      that raises decides the outcome. */
  function FindEach(k: string, elems: seq<Value>, d: char): (r: Found<seq<Value>>)
    ensures r.Ok? ==> |r.value| == |elems|
    ensures r.Ok? ==> forall i :: 0 <= i < |elems| ==> Find(k, elems[i], d) == Ok(r.value[i])
    ensures r.Err? ==> exists i :: 0 <= i < |elems| && Find(k, elems[i], d) == Err(r.error)
                                   && forall j :: 0 <= j < i ==> Find(k, elems[j], d).Ok?
    ensures r.Err? && r.error == DelimiterClash ==> exists i :: 0 <= i < |elems| && !KeysAvoid(elems[i], d)
    ensures r.Ok? ==> forall i :: 0 <= i < |elems| && KeysAvoid(elems[i], d) ==> KeysAvoid(r.value[i], d)
    decreases elems, 0
  {
    if |elems| == 0 then Ok([])
    else
      match Find(k, elems[0], d)
      case Err(e) => Err(e)
      case Ok(first) =>
        match FindEach(k, elems[1..], d)
        case Err(e) => Err(e)
        case Ok(rest) => Ok([first] + rest)
  }

  /** The `while criteria:` loop: segments are consumed left to right. */
  function Eval(segs: seq<string>, v: Value, d: char): (r: Found<Value>)
    ensures segs == [] ==> r == Ok(v)
    ensures r == Err(DelimiterClash) ==> !KeysAvoid(v, d)
    ensures r.Ok? && KeysAvoid(v, d) ==> KeysAvoid(r.value, d)
    decreases |segs|
  {
    if |segs| == 0 then Ok(v)
    else
      match Find(segs[0], v, d)
      case Err(e) => Err(e)
      case Ok(next) => Eval(segs[1..], next, d)
  }

  /** How apply_criteria hands back what the walk produced: each exception
      as itself, a list or object as the document to encode, anything else
      bare. */
  function Classify(e: Found<Value>): (r: QueryResult)
    ensures r == BadPath <==> e == Err(BadCriteria)
    ensures r == Clash <==> e == Err(DelimiterClash)
    ensures r.Composite? <==> e.Ok? && IsComposite(e.value)
    ensures r.Scalar? <==> e.Ok? && !IsComposite(e.value)
    ensures r.Composite? ==> r.doc == e.value
    ensures r.Scalar? ==> r.leaf == e.value
  {
    match e
    case Err(BadCriteria) => BadPath
    case Err(DelimiterClash) => Clash
    case Ok(last) => if IsComposite(last) then Composite(last) else Scalar(last)
  }

  /** `apply_criteria(path, d, doc)` with the codec left out. */
  function ApplyCriteria(path: string, d: char, doc: Value): (r: QueryResult)
    ensures path == Everything ==> r == (if IsComposite(doc) then Composite(doc) else Scalar(doc))
    ensures forall segs {:trigger SplitsTo(segs, path, d)} :: path != Everything && SplitsTo(segs, path, d) ==> r == Classify(Eval(segs, doc, d))
    ensures r == Clash ==> !KeysAvoid(doc, d)
  {
    SplitIsUnique(path, d);
    Classify(Eval(Criteria(path, d), doc, d))
  }

  /** Nothing is lost in the hand-back: two walks that are classified
      alike produced the same value or raised the same exception. */
  lemma ClassifyInjective(e1: Found<Value>, e2: Found<Value>)
    ensures Classify(e1) == Classify(e2) <==> e1 == e2
  {
  }

  /** `'*'` returns the whole document, classified by its shape. */
  lemma StarSelectsDocument(d: char, doc: Value)
    ensures ApplyCriteria(Everything, d, doc) == (if IsComposite(doc) then Composite(doc) else Scalar(doc))
  {
  }

  /** A walk through objects whose keys avoid the delimiter returns the
      value at the path. */
  lemma {:induction false} EvalIsAt(segs: seq<string>, v: Value, d: char)
    requires KeysAvoid(v, d) && At(v, segs).Some?
    ensures Eval(segs, v, d) == Ok(At(v, segs).value)
    decreases |segs|
  {
    if |segs| > 0 {
      var c := Lookup(v.fields, segs[0]).value;
      assert !HasClash(v.fields, d);
      var j :| 0 <= j < |v.fields| && v.fields[j] == (segs[0], c);
      assert KeysAvoid(c, d);
      EvalIsAt(segs[1..], c, d);
    }
  }

  /** Segments are consumed left to right: evaluating a concatenation is
      evaluating the first part, then the second part on its result. */
  lemma {:induction false} EvalAppend(s1: seq<string>, s2: seq<string>, v: Value, d: char)
    ensures Eval(s1 + s2, v, d) ==
            (match Eval(s1, v, d)
             case Err(e) => Err(e)
             case Ok(mid) => Eval(s2, mid, d))
    decreases |s1|
  {
    if |s1| == 0 {
      assert s1 + s2 == s2;
    } else {
      assert (s1 + s2)[0] == s1[0];
      assert (s1 + s2)[1..] == s1[1..] + s2;
      match Find(s1[0], v, d)
      case Err(e) =>
      case Ok(next) => EvalAppend(s1[1..], s2, next, d);
    }
  }

  /** Any object reached with a segment left is scanned in full: a key
      containing the delimiter gives Clash whatever segment is sought. */
  lemma ClashAtVisitedObject(segs: seq<string>, fields: seq<(string, Value)>, d: char, i: nat)
    requires |segs| > 0
    requires i < |fields| && d in fields[i].0
    ensures Eval(segs, Obj(fields), d) == Err(DelimiterClash)
  {
  }

  /** A missing key at an object, or a scalar with a segment left, is a
      bad path. */
  lemma MissingOrScalarIsBadPath(segs: seq<string>, v: Value, d: char)
    requires |segs| > 0
    requires !IsComposite(v) || (v.Obj? && !HasClash(v.fields, d) && Lookup(v.fields, segs[0]).None?)
    ensures Eval(segs, v, d) == Err(BadCriteria)
  {
  }

  /** A clash can only come from a key that really contains the delimiter. */
  lemma {:induction false} ClashNeedsDelimiterInKey(segs: seq<string>, v: Value, d: char)
    requires KeysAvoid(v, d)
    ensures Eval(segs, v, d) != Err(DelimiterClash)
    decreases |segs|
  {
    if |segs| > 0 {
      match Find(segs[0], v, d)
      case Err(e) =>
      case Ok(next) => ClashNeedsDelimiterInKey(segs[1..], next, d);
    }
  }

  /** Broadcast: a segment applied to an array yields an array of the same
      length, element i being the segment applied to element i, and fails
      exactly when some element fails. */
  lemma Broadcast(k: string, elems: seq<Value>, d: char)
    ensures Find(k, Arr(elems), d).Ok? <==> forall i :: 0 <= i < |elems| ==> Find(k, elems[i], d).Ok?
    ensures Find(k, Arr(elems), d).Ok? ==>
              && Find(k, Arr(elems), d).value.Arr?
              && |Find(k, Arr(elems), d).value.elems| == |elems|
              && forall i :: 0 <= i < |elems| ==> Find(k, elems[i], d) == Ok(Find(k, Arr(elems), d).value.elems[i])
  {
  }

  /** When neither delimiter occurs in any key, the delimiter does not
      change what a segment list evaluates to. */
  lemma {:induction false} DelimiterOnlyMattersForClash(segs: seq<string>, v: Value, d1: char, d2: char)
    requires KeysAvoid(v, d1) && KeysAvoid(v, d2)
    ensures Eval(segs, v, d1) == Eval(segs, v, d2)
    decreases |segs|
  {
    if |segs| > 0 {
      FindDelimiterFree(segs[0], v, d1, d2);
      match Find(segs[0], v, d1)
      case Err(e) =>
      case Ok(next) => DelimiterOnlyMattersForClash(segs[1..], next, d1, d2);
    }
  }

  lemma {:induction false} FindDelimiterFree(k: string, v: Value, d1: char, d2: char)
    requires KeysAvoid(v, d1) && KeysAvoid(v, d2)
    ensures Find(k, v, d1) == Find(k, v, d2)
    decreases v, 1
  {
    match v
    case Obj(fields) =>
      assert !HasClash(fields, d1) && !HasClash(fields, d2);
    case Arr(elems) =>
      FindEachDelimiterFree(k, elems, d1, d2);
    case _ =>
  }

  lemma {:induction false} FindEachDelimiterFree(k: string, elems: seq<Value>, d1: char, d2: char)
    requires forall i :: 0 <= i < |elems| ==> KeysAvoid(elems[i], d1) && KeysAvoid(elems[i], d2)
    ensures FindEach(k, elems, d1) == FindEach(k, elems, d2)
    decreases elems, 0
  {
    if |elems| > 0 {
      FindDelimiterFree(k, elems[0], d1, d2);
      FindEachDelimiterFree(k, elems[1..], d1, d2);
    }
  }
}

=== FILE: scenarios.dfy ===
/**
  The documents and answers the repository's tests pin down, restated as
  lemmas about the model (freddy/tests/test_basics.py and
  freddy/tests/test_filtering.py).
 */
module Scenarios {
  import opened Json
  import opened Paths
  import opened Query
  import opened Mask
  import opened Applier
  import opened Facade

  const Level2: Value := Obj([("level3", Str("item_level3")), ("level35", Str("item_level35"))])

  const Simple: Value := Obj([("level1", Str("item_level1")), ("level2", Level2)])

  const BadKeys: Value := Obj([("level1", Str("item_level1")), ("level2.5", Level2)])

  /** apply's reply once the split of the path and the walk along it are
      known. */
  lemma ApplyAlong(rf: ResultFilter, path: string, segs: seq<string>, e: Found<Value>)
    requires path != Everything && Split(path, rf.delim) == segs && Eval(segs, rf.doc, rf.delim) == e
    ensures e == Err(BadCriteria) ==> Apply(rf, path) == Message(BadPathMessage(path))
    ensures e == Err(DelimiterClash) ==> Apply(rf, path) == Message(ClashMessage(rf.delim))
    ensures e.Ok? && IsComposite(e.value) ==> Apply(rf, path) == Encoded(e.value)
    ensures e.Ok? && !IsComposite(e.value) ==> Apply(rf, path) == Bare(e.value)
  {
  }

  /** The messages the tests compare against. */
  lemma MissingKeyText()
    ensures BadPathMessage("level11") == "Unable to filter using level11"
  {
  }

  lemma MissingKeyPartText()
    ensures BadPathMessage("level2.level23") == "Unable to filter using level2.level23"
  {
  }

  lemma ClashText()
    ensures ClashMessage('.') == "Criteria delimiter [.] is a key in document"
  {
  }

  lemma SimpleFieldsAvoidDot()
    ensures !HasClash(Simple.fields, '.') && !HasClash(Level2.fields, '.')
  {
    assert '.' !in "level1" && '.' !in "level2";
    assert '.' !in "level3" && '.' !in "level35";
  }

  lemma Level2IsSecond()
    ensures Lookup(Simple.fields, "level2") == Some(Level2)
  {
    assert "level1"[5] != "level2"[5];
    assert Simple.fields[1..] == [("level2", Level2)];
    assert IndexOf(Simple.fields[1..], "level2") == Some(0);
  }

  lemma QueryLevel1()
    ensures Apply(ResultFilter(Simple, '.'), "level1") == Bare(Str("item_level1"))
  {
    NoDelimiterIsOneSegment("level1", '.');
    assert Eval(["level1"], Simple, '.') == Ok(Str("item_level1")) by {
      SimpleFieldsAvoidDot();
      assert Lookup(Simple.fields, "level1") == Some(Str("item_level1"));
    }
    ApplyAlong(ResultFilter(Simple, '.'), "level1", ["level1"], Ok(Str("item_level1")));
  }

  lemma SplitLevel2Level3()
    ensures Split("level2.level3", '.') == ["level2", "level3"]
  {
    assert Join(["level2", "level3"], '.') == "level2.level3";
    SplitJoin(["level2", "level3"], '.');
  }

  lemma EvalLevel2Level3()
    ensures Eval(["level2", "level3"], Simple, '.') == Ok(Str("item_level3"))
  {
    SimpleFieldsAvoidDot();
    Level2IsSecond();
    assert Lookup(Level2.fields, "level3") == Some(Str("item_level3"));
    assert Eval(["level3"], Level2, '.') == Ok(Str("item_level3"));
    assert Eval(["level2", "level3"], Simple, '.') == Eval(["level3"], Level2, '.');
  }

  lemma QueryLevel2Level3()
    ensures Apply(ResultFilter(Simple, '.'), "level2.level3") == Bare(Str("item_level3"))
  {
    SplitLevel2Level3();
    EvalLevel2Level3();
    ApplyAlong(ResultFilter(Simple, '.'), "level2.level3", ["level2", "level3"], Ok(Str("item_level3")));
  }

  lemma QueryLevel2()
    ensures Apply(ResultFilter(Simple, '.'), "level2") == Encoded(Level2)
  {
    NoDelimiterIsOneSegment("level2", '.');
    assert Eval(["level2"], Simple, '.') == Ok(Level2) by {
      SimpleFieldsAvoidDot();
      Level2IsSecond();
    }
    ApplyAlong(ResultFilter(Simple, '.'), "level2", ["level2"], Ok(Level2));
  }

  lemma Level11IsMissing()
    ensures Lookup(Simple.fields, "level11") == None
  {
    assert |Simple.fields[0].0| == 6 && |Simple.fields[1].0| == 6 && |"level11"| == 7;
    assert forall j :: 0 <= j < |Simple.fields| ==> Simple.fields[j].0 != "level11";
  }

  lemma QueryMissingKey()
    ensures Apply(ResultFilter(Simple, '.'), "level11") == Message(BadPathMessage("level11"))
  {
    NoDelimiterIsOneSegment("level11", '.');
    assert Eval(["level11"], Simple, '.') == Err(BadCriteria) by {
      SimpleFieldsAvoidDot();
      Level11IsMissing();
    }
    ApplyAlong(ResultFilter(Simple, '.'), "level11", ["level11"], Err(BadCriteria));
  }

  lemma SplitLevel2Level23()
    ensures Split("level2.level23", '.') == ["level2", "level23"]
  {
    assert Join(["level2", "level23"], '.') == "level2.level23";
    SplitJoin(["level2", "level23"], '.');
  }

  lemma EvalLevel2Level23()
    ensures Eval(["level2", "level23"], Simple, '.') == Err(BadCriteria)
  {
    SimpleFieldsAvoidDot();
    Level2IsSecond();
    assert "level3"[5] != "level23"[5] && "level35"[5] != "level23"[5];
    assert Lookup(Level2.fields, "level23") == None;
    assert Eval(["level23"], Level2, '.') == Err(BadCriteria);
  }

  lemma QueryMissingKeyPart()
    ensures Apply(ResultFilter(Simple, '.'), "level2.level23") == Message(BadPathMessage("level2.level23"))
  {
    SplitLevel2Level23();
    EvalLevel2Level23();
    ApplyAlong(ResultFilter(Simple, '.'), "level2.level23", ["level2", "level23"], Err(BadCriteria));
  }

  lemma SplitClashingPath()
    ensures Split("level2.5.level35", '.') == ["level2", "5", "level35"]
  {
    var segs := ["level2", "5", "level35"];
    assert Join(segs[2..], '.') == "level35";
    assert Join(segs[1..], '.') == "5" + ['.'] + "level35";
    assert Join(segs, '.') == "level2" + ['.'] + ("5" + ['.'] + "level35");
    assert "level2" + ['.'] + ("5" + ['.'] + "level35") == "level2.5.level35";
    SplitJoin(segs, '.');
  }

  lemma QueryClashingKey()
    ensures Apply(ResultFilter(BadKeys, '.'), "level2.5.level35") == Message(ClashMessage('.'))
  {
    SplitClashingPath();
    assert Eval(["level2", "5", "level35"], BadKeys, '.') == Err(DelimiterClash) by {
      assert '.' in BadKeys.fields[1].0;
      ClashAtVisitedObject(["level2", "5", "level35"], BadKeys.fields, '.', 1);
    }
    ApplyAlong(ResultFilter(BadKeys, '.'), "level2.5.level35", ["level2", "5", "level35"], Err(DelimiterClash));
  }

  lemma SplitOnCaret()
    ensures Split("level2.5^level35", '^') == ["level2.5", "level35"]
  {
    assert Join(["level2.5", "level35"], '^') == "level2.5^level35";
    SplitJoin(["level2.5", "level35"], '^');
  }

  lemma EvalOnCaret()
    ensures Eval(["level2.5", "level35"], BadKeys, '^') == Ok(Str("item_level35"))
  {
    assert '^' !in "level1" && '^' !in "level2.5";
    assert '^' !in "level3" && '^' !in "level35";
    assert !HasClash(BadKeys.fields, '^');
    assert !HasClash(Level2.fields, '^');
    assert "level1"[5] != "level2.5"[5];
    assert BadKeys.fields[1..] == [("level2.5", Level2)];
    assert IndexOf(BadKeys.fields[1..], "level2.5") == Some(0);
    assert Lookup(BadKeys.fields, "level2.5") == Some(Level2);
    assert "level3" != "level35";
    assert Level2.fields[1..] == [("level35", Str("item_level35"))];
    assert IndexOf(Level2.fields[1..], "level35") == Some(0);
    assert Lookup(Level2.fields, "level35") == Some(Str("item_level35"));
    assert Eval(["level35"], Level2, '^') == Ok(Str("item_level35"));
    assert Eval(["level2.5", "level35"], BadKeys, '^') == Eval(["level35"], Level2, '^');
  }

  /** With a delimiter that no key contains, the same document resolves. */
  lemma QueryOtherDelimiter()
    ensures Apply(ResultFilter(BadKeys, '^'), "level2.5^level35") == Bare(Str("item_level35"))
  {
    SplitOnCaret();
    EvalOnCaret();
    ApplyAlong(ResultFilter(BadKeys, '^'), "level2.5^level35", ["level2.5", "level35"], Ok(Str("item_level35")));
  }

  // ---------------------------------------------------------------------
  // Small facts about the model, used by the scenarios below.

  /** A segment found at an object with no clashing key. */
  lemma FindAtObject(fields: seq<(string, Value)>, k: string, d: char, v: Value)
    requires !HasClash(fields, d) && Lookup(fields, k) == Some(v)
    ensures Find(k, Obj(fields), d) == Ok(v)
  {
  }

  /** Broadcast over a two-element list. */
  lemma FindEachTwo(k: string, a: Value, b: Value, d: char, ra: Value, rb: Value)
    requires Find(k, a, d) == Ok(ra) && Find(k, b, d) == Ok(rb)
    ensures FindEach(k, [a, b], d) == Ok([ra, rb])
  {
    assert [a, b][0] == a && [a, b][1..] == [b];
    assert [b][0] == b && [b][1..] == [];
    assert FindEach(k, [], d) == Ok([]);
    assert [rb] + [] == [rb];
    assert FindEach(k, [b], d) == Ok([rb]);
    assert [ra] + [rb] == [ra, rb];
  }

  /** A key at an object holding a scalar: the leaf sub-path shape. */
  lemma LeafAt(x: Value, k: string, leaf: Value)
    requires x.Obj? && Lookup(x.fields, k) == Some(leaf) && !IsComposite(leaf)
    ensures EndsAtLeafOrGap(x, [k]) && At(x, [k]) == Some(leaf)
  {
    assert [k][1..] == [];
  }

  /** Two keys, through an object, to a scalar. */
  lemma LeafAt2(x: Value, k1: string, k2: string, mid: Value, leaf: Value)
    requires x.Obj? && Lookup(x.fields, k1) == Some(mid)
    requires mid.Obj? && Lookup(mid.fields, k2) == Some(leaf) && !IsComposite(leaf)
    ensures EndsAtLeafOrGap(x, [k1, k2]) && At(x, [k1, k2]) == Some(leaf)
  {
    LeafAt(mid, k2, leaf);
    assert [k1, k2][1..] == [k2];
  }

  lemma MatchesThree(a: Value, b: Value, c: Value, rest: seq<string>, t: Value)
    ensures Matches([a, b, c], rest, t) == [At(a, rest) == Some(t), At(b, rest) == Some(t), At(c, rest) == Some(t)]
  {
  }

  lemma KeepThree(a: Value, b: Value, c: Value, fa: bool, fb: bool, fc: bool)
    ensures Keep([a, b, c], [fa, fb, fc]) ==
              (if fa then [a] else []) + (if fb then [b] else []) + (if fc then [c] else [])
  {
    assert [a, b, c][..2] == [a, b] && [fa, fb, fc][..2] == [fa, fb];
    assert [a, b][..1] == [a] && [fa, fb][..1] == [fa];
    assert [a][..0] == [] && [fa][..0] == [];
  }

  /** Writing back under the only key of an object. */
  lemma SingleKeyWriteBack(k: string, v: Value, nv: Value)
    ensures UpdateAt(Obj([(k, v)]), [k], nv) == Obj([(k, nv)])
  {
    assert IndexOf([(k, v)], k) == Some(0);
    assert [k][1..] == [];
    assert [(k, v)][0 := (k, nv)] == [(k, nv)];
  }

  /** filter_on on a document whose only key holds the list. */
  lemma FilterSingleKey(k: string, items: seq<Value>, path: string, rest: seq<string>, target: Value, kept: seq<Value>)
    requires Split(path, MaskDelimiter) == [k] + rest && |rest| >= 1
    requires forall i :: 0 <= i < |items| ==> EndsAtLeafOrGap(items[i], rest)
    requires Keep(items, Matches(items, rest, target)) == kept
    ensures FilterOn(ResultFilter(Obj([(k, Arr(items))]), '.'), path, target) == Encoded(Obj([(k, Arr(kept))]))
  {
    var c := [k] + rest;
    assert c[0] == k && c[1..] == rest;
    assert Lookup([(k, Arr(items))], k) == Some(Arr(items));
    SingleKeyWriteBack(k, Arr(items), Arr(kept));
    FilterOnArrayUnderRoot(ResultFilter(Obj([(k, Arr(items))]), '.'), path, target, [(k, Arr(items))], items);
  }

  /** Element `x` has the leaf sub-path shape, and `f` says whether its
      value at `rest` is the target. */
  predicate Compares(x: Value, rest: seq<string>, target: Value, f: bool) {
    EndsAtLeafOrGap(x, rest) && f == (At(x, rest) == Some(target))
  }

  lemma ThreeEndAtLeafOrGap(items: seq<Value>, rest: seq<string>)
    requires |items| == 3
    requires EndsAtLeafOrGap(items[0], rest) && EndsAtLeafOrGap(items[1], rest) && EndsAtLeafOrGap(items[2], rest)
    ensures forall i :: 0 <= i < |items| ==> EndsAtLeafOrGap(items[i], rest)
  {
  }

  /** filter_on on a three-element list under the only key, given how
      each element compares. */
  lemma FilterThree(k: string, a: Value, b: Value, c: Value, path: string, rest: seq<string>, target: Value,
                    fa: bool, fb: bool, fc: bool, kept: seq<Value>)
    requires Split(path, MaskDelimiter) == [k] + rest && |rest| >= 1
    requires Compares(a, rest, target, fa) && Compares(b, rest, target, fb) && Compares(c, rest, target, fc)
    requires kept == Keep([a, b, c], [fa, fb, fc])
    ensures FilterOn(ResultFilter(Obj([(k, Arr([a, b, c]))]), '.'), path, target) == Encoded(Obj([(k, Arr(kept))]))
  {
    var items := [a, b, c];
    ThreeEndAtLeafOrGap(items, rest);
    assert Keep(items, Matches(items, rest, target)) == kept by {
      MatchesThree(a, b, c, rest, target);
    }
    FilterSingleKey(k, items, path, rest, target, kept);
  }

  /** Only the first of three flags set: the first element alone is kept. */
  lemma KeepFirstOfThree(a: Value, b: Value, c: Value)
    ensures Keep([a, b, c], [true, false, false]) == [a]
  {
    var none: seq<Value> := [];
    KeepThree(a, b, c, true, false, false);
    assert [a] + none + none == [a];
  }

  /** The last two of three flags set: those two are kept, in order. */
  lemma KeepLastTwoOfThree(a: Value, b: Value, c: Value)
    ensures Keep([a, b, c], [false, true, true]) == [b, c]
  {
    var none: seq<Value> := [];
    KeepThree(a, b, c, false, true, true);
    assert none + [b] + [c] == [b, c];
  }

  // ---------------------------------------------------------------------
  // A list of objects with the same key (test_basics.py, lines 157-195).

  const Z25: Value := Obj([("level251", Str("item_level251")), ("level252", Str("item_level252"))])
  const Z26: Value := Obj([("level261", Str("item_level261")), ("level262", Str("item_level262"))])
  const E1: Value := Obj([("level25", Z25)])
  const E2: Value := Obj([("level25", Z26)])
  const RepeatsWithList: Value := Obj([("level1", Str("item_level1")), ("level2", Arr([E1, E2]))])

  lemma SplitLevel2Level25()
    ensures Split("level2.level25", '.') == ["level2", "level25"]
  {
    assert Join(["level2", "level25"], '.') == "level2.level25";
    SplitJoin(["level2", "level25"], '.');
  }

  lemma RepeatsLevel2()
    ensures Find("level2", RepeatsWithList, '.') == Ok(Arr([E1, E2]))
  {
    assert '.' !in "level1" && '.' !in "level2";
    assert !HasClash(RepeatsWithList.fields, '.');
    assert "level1"[5] != "level2"[5];
    assert RepeatsWithList.fields[1..] == [("level2", Arr([E1, E2]))];
    assert IndexOf(RepeatsWithList.fields[1..], "level2") == Some(0);
    FindAtObject(RepeatsWithList.fields, "level2", '.', Arr([E1, E2]));
  }

  lemma RepeatsLevel25()
    ensures Find("level25", Arr([E1, E2]), '.') == Ok(Arr([Z25, Z26]))
  {
    assert '.' !in "level25";
    assert !HasClash(E1.fields, '.') && !HasClash(E2.fields, '.');
    FindAtObject(E1.fields, "level25", '.', Z25);
    FindAtObject(E2.fields, "level25", '.', Z26);
    FindEachTwo("level25", E1, E2, '.', Z25, Z26);
  }

  /** `apply('level2.level25')` broadcasts the last segment over the list. */
  lemma QuerySameKeys()
    ensures Apply(ResultFilter(RepeatsWithList, '.'), "level2.level25") == Encoded(Arr([Z25, Z26]))
  {
    SplitLevel2Level25();
    assert Eval(["level2", "level25"], RepeatsWithList, '.') == Ok(Arr([Z25, Z26])) by {
      RepeatsLevel2();
      RepeatsLevel25();
      assert ["level2", "level25"][1..] == ["level25"];
      assert Eval(["level25"], Arr([E1, E2]), '.') == Ok(Arr([Z25, Z26]));
    }
    ApplyAlong(ResultFilter(RepeatsWithList, '.'), "level2.level25", ["level2", "level25"], Ok(Arr([Z25, Z26])));
  }

  /** `apply('level2')` gives the list itself. */
  lemma QuerySameKeysRoot()
    ensures Apply(ResultFilter(RepeatsWithList, '.'), "level2") == Encoded(Arr([E1, E2]))
  {
    NoDelimiterIsOneSegment("level2", '.');
    assert Eval(["level2"], RepeatsWithList, '.') == Ok(Arr([E1, E2])) by {
      RepeatsLevel2();
    }
    ApplyAlong(ResultFilter(RepeatsWithList, '.'), "level2", ["level2"], Ok(Arr([E1, E2])));
  }

  // ---------------------------------------------------------------------
  // Two sub-objects, and a dict literal that repeats a key
  // (test_basics.py, lines 97-154).

  const Level2Pair: Value := Obj([("level25", Z25), ("level26", Z26)])
  const OneLevel2: Value := Obj([("level1", Str("item_level1")), ("level2", Level2Pair)])

  /** A Python dict literal keeps only the last value given for a repeated
      key, so the document built from the literal with `level25` twice has a
      single `level25`, holding the second object. */
  const OneLevelRepeats: Value := Obj([("level1", Str("item_level1")), ("level2", E2)])

  /** `level2` is found in a two-key root whose other key is `level1`. */
  lemma FindLevel2(doc: Value, sub: Value)
    requires doc == Obj([("level1", Str("item_level1")), ("level2", sub)])
    ensures Find("level2", doc, '.') == Ok(sub)
  {
    assert '.' !in "level1" && '.' !in "level2";
    assert !HasClash(doc.fields, '.');
    assert "level1"[5] != "level2"[5];
    assert doc.fields[1..] == [("level2", sub)];
    assert IndexOf(doc.fields[1..], "level2") == Some(0);
    FindAtObject(doc.fields, "level2", '.', sub);
  }

  /** `apply('level2')` gives both sub-objects. */
  lemma QueryTwoSubObjects()
    ensures Apply(ResultFilter(OneLevel2, '.'), "level2") == Encoded(Level2Pair)
  {
    NoDelimiterIsOneSegment("level2", '.');
    assert Eval(["level2"], OneLevel2, '.') == Ok(Level2Pair) by {
      FindLevel2(OneLevel2, Level2Pair);
    }
    ApplyAlong(ResultFilter(OneLevel2, '.'), "level2", ["level2"], Ok(Level2Pair));
  }

  /** `apply('level2.level25')` on the repeated-key literal gives the object
      written last under `level25`. */
  lemma QueryRepeatedKeyNoList()
    ensures Apply(ResultFilter(OneLevelRepeats, '.'), "level2.level25") == Encoded(Z26)
  {
    SplitLevel2Level25();
    assert Eval(["level2", "level25"], OneLevelRepeats, '.') == Ok(Z26) by {
      FindLevel2(OneLevelRepeats, E2);
      Level25OfSecond();
      assert ["level2", "level25"][1..] == ["level25"];
      assert Eval(["level25"], E2, '.') == Ok(Z26);
    }
    ApplyAlong(ResultFilter(OneLevelRepeats, '.'), "level2.level25", ["level2", "level25"], Ok(Z26));
  }

  lemma Level25OfSecond()
    ensures Find("level25", E2, '.') == Ok(Z26)
  {
    assert '.' !in "level25";
    assert !HasClash(E2.fields, '.');
    FindAtObject(E2.fields, "level25", '.', Z26);
  }

  // ---------------------------------------------------------------------
  // Filtering a list of contests (test_filtering.py).

  const C1: Value := Obj([("name", Str("contest1")), ("entry_count", Num(23)), ("rosters", Arr([Str("blah"), Str("blah2")]))])
  const C2: Value := Obj([("name", Str("contest2")), ("entry_count", Num(24)), ("rosters", Arr([Str("bleeb"), Str("blop")]))])
  const C4: Value := Obj([("name", Str("contest4")), ("entry_count", Num(24)), ("rosters", Arr([Str("bleeb"), Str("blop")]))])
  const OneLevel: Value := Obj([("contests", Arr([C1, C2, C4]))])

  lemma SplitContests(path: string, k: string)
    requires '.' !in k && path == "contests." + k
    ensures Split(path, '.') == ["contests", k]
  {
    assert Join(["contests", k], '.') == path;
    SplitJoin(["contests", k], '.');
  }

  lemma ContestNames(target: Value)
    ensures Compares(C1, ["name"], target, Str("contest1") == target)
    ensures Compares(C2, ["name"], target, Str("contest2") == target)
    ensures Compares(C4, ["name"], target, Str("contest4") == target)
  {
    LeafAt(C1, "name", Str("contest1"));
    LeafAt(C2, "name", Str("contest2"));
    LeafAt(C4, "name", Str("contest4"));
  }

  /** `entry_count` is the second key, after `name`. */
  lemma EntryCountIsSecond(x: Value, n: int)
    requires x.Obj? && |x.fields| >= 2
    requires x.fields[0].0 == "name" && x.fields[1] == ("entry_count", Num(n))
    ensures At(x, ["entry_count"]) == Some(Num(n)) && EndsAtLeafOrGap(x, ["entry_count"])
  {
    assert |"name"| != |"entry_count"|;
    assert x.fields[1..][0].0 == "entry_count";
    assert IndexOf(x.fields[1..], "entry_count") == Some(0);
    LeafAt(x, "entry_count", Num(n));
  }

  lemma ContestCounts(target: Value)
    ensures Compares(C1, ["entry_count"], target, Num(23) == target)
    ensures Compares(C2, ["entry_count"], target, Num(24) == target)
    ensures Compares(C4, ["entry_count"], target, Num(24) == target)
  {
    EntryCountIsSecond(C1, 23);
    EntryCountIsSecond(C2, 24);
    EntryCountIsSecond(C4, 24);
  }

  // Path and target are pinned by the requires so the solver does not unfold the filter on literals.
  lemma NameIsContest1(path: string, target: Value)
    requires path == "contests.name" && target == Str("contest1")
    ensures Split(path, MaskDelimiter) == ["contests"] + ["name"]
    ensures Compares(C1, ["name"], target, true)
    ensures Compares(C2, ["name"], target, false) && Compares(C4, ["name"], target, false)
  {
    assert "contests." + "name" == "contests.name";
    SplitContests(path, "name");
    ContestNames(target);
    assert "contest2"[7] != "contest1"[7] && "contest4"[7] != "contest1"[7];
  }

  // Path and target are pinned by the requires so the solver does not unfold the filter on literals.
  lemma CountIs24(path: string, target: Value)
    requires path == "contests.entry_count" && target == Num(24)
    ensures Split(path, MaskDelimiter) == ["contests"] + ["entry_count"]
    ensures Compares(C1, ["entry_count"], target, false)
    ensures Compares(C2, ["entry_count"], target, true) && Compares(C4, ["entry_count"], target, true)
  {
    assert "contests." + "entry_count" == "contests.entry_count";
    SplitContests(path, "entry_count");
    ContestCounts(target);
  }

  // Path and target are pinned by the requires so the solver does not unfold the filter on literals.
  lemma NameIsContest3(path: string, target: Value)
    requires path == "contests.name" && target == Str("contest3")
    ensures Split(path, MaskDelimiter) == ["contests"] + ["name"]
    ensures Compares(C1, ["name"], target, false)
    ensures Compares(C2, ["name"], target, false) && Compares(C4, ["name"], target, false)
  {
    assert "contests." + "name" == "contests.name";
    SplitContests(path, "name");
    ContestNames(target);
    assert "contest1"[7] != "contest3"[7] && "contest2"[7] != "contest3"[7] && "contest4"[7] != "contest3"[7];
  }

  /** Filtering on `contests.name` keeps the one contest with that name. */
  // Path and target are pinned by the requires so the solver does not unfold the filter on literals.
  lemma FilterWhereEqualsName(path: string, target: Value)
    requires path == "contests.name" && target == Str("contest1")
    ensures FilterOn(ResultFilter(OneLevel, '.'), path, target) ==
            Encoded(Obj([("contests", Arr([C1]))]))
  {
    NameIsContest1(path, target);
    KeepFirstOfThree(C1, C2, C4);
    FilterThree("contests", C1, C2, C4, path, ["name"], target, true, false, false, [C1]);
  }


  /** Filtering on `contests.entry_count` keeps both contests with 24
      entries, in their order. */
  // Path and target are pinned by the requires so the solver does not unfold the filter on literals.
  lemma FilterWhereEqualsTwo(path: string, target: Value)
    requires path == "contests.entry_count" && target == Num(24)
    ensures FilterOn(ResultFilter(OneLevel, '.'), path, target) ==
            Encoded(Obj([("contests", Arr([C2, C4]))]))
  {
    CountIs24(path, target);
    KeepLastTwoOfThree(C1, C2, C4);
    FilterThree("contests", C1, C2, C4, path, ["entry_count"], target, false, true, true, [C2, C4]);
  }


  /** No contest matches: the list is emptied in place. */
  // Path and target are pinned by the requires so the solver does not unfold the filter on literals.
  lemma FilterNoMatch(path: string, target: Value)
    requires path == "contests.name" && target == Str("contest3")
    ensures FilterOn(ResultFilter(OneLevel, '.'), path, target) ==
            Encoded(Obj([("contests", Arr([]))]))
  {
    NameIsContest3(path, target);
    FilterThree("contests", C1, C2, C4, path, ["name"], target, false, false, false, []);
  }


  /** A missing first key is the bad-path message. */
  lemma FilterMissingKey()
    ensures FilterOn(ResultFilter(OneLevel, '.'), "rounds.name", Str("contest1")) == Message(BadPathMessage("rounds.name"))
  {
    assert Join(["rounds", "name"], '.') == "rounds.name";
    SplitJoin(["rounds", "name"], '.');
    assert |"rounds"| != |"contests"|;
    assert Lookup(OneLevel.fields, "rounds") == None;
    assert FirstList(["rounds", "name"], OneLevel) == Missing;
    FilterOnOutcome(ResultFilter(OneLevel, '.'), "rounds.name", Str("contest1"));
  }

  /** A path that ends on the list itself reaches no list with a segment
      left, and popping the empty list of recorded lists raises. */
  lemma FilterPathEndsAtList()
    ensures FilterOn(ResultFilter(OneLevel, '.'), "contests", Str("contest1")) == Raised(NoListReached)
  {
    NoDelimiterIsOneSegment("contests", '.');
    assert Lookup(OneLevel.fields, "contests") == Some(Arr([C1, C2, C4]));
    assert FirstList([], Arr([C1, C2, C4])) == NoList;
    assert FirstList(["contests"], OneLevel) == NoList;
    FilterOnOutcome(ResultFilter(OneLevel, '.'), "contests", Str("contest1"));
  }

  // Two levels below the list (test_filtering.py, lines 66-121).

  const B1: Value := Obj([("main_bloop", Str("256")), ("second_bloop", Str("blamo"))])
  const B2: Value := Obj([("main_bloop", Str("255")), ("second_bloop", Str("slamo"))])
  const B4: Value := Obj([("main_bloop", Str("254")), ("second_bloop", Str("rilamo"))])

  function WithBloopers(c: Value, b: Value): Value
    requires c.Obj?
  {
    Obj(c.fields + [("bloopers", b)])
  }

  const D1: Value := WithBloopers(C1, B1)
  const D2: Value := WithBloopers(C2, B2)
  const D4: Value := WithBloopers(C4, B4)
  const TwoLevel: Value := Obj([("contests", Arr([D1, D2, D4]))])

  // Path and target are pinned by the requires so the solver does not unfold the filter on literals.
  lemma SplitMainBloop(path: string)
    requires path == "contests.bloopers.main_bloop"
    ensures Split(path, '.') == ["contests", "bloopers", "main_bloop"]
  {
    var segs := ["contests", "bloopers", "main_bloop"];
    assert Join(segs[2..], '.') == "main_bloop";
    assert Join(segs[1..], '.') == "bloopers.main_bloop";
    assert Join(segs, '.') == "contests.bloopers.main_bloop";
    SplitJoin(segs, '.');
  }

  /** The bloopers object is the fourth field; no earlier key has its length. */
  lemma BloopersIsFourth(c: Value, b: Value)
    requires c.Obj? && |c.fields| == 3
    requires forall i :: 0 <= i < 3 ==> |c.fields[i].0| != |"bloopers"|
    requires b.Obj? && |b.fields| > 0 && b.fields[0].0 == "main_bloop" && b.fields[0].1.Str?
    ensures At(WithBloopers(c, b), ["bloopers", "main_bloop"]) == Some(b.fields[0].1)
    ensures EndsAtLeafOrGap(WithBloopers(c, b), ["bloopers", "main_bloop"])
  {
    var f := WithBloopers(c, b).fields;
    assert f[3] == ("bloopers", b);
    assert forall i :: 0 <= i < 3 ==> f[i].0 != "bloopers";
    assert IndexOf(f, "bloopers") == Some(3);
    assert IndexOf(b.fields, "main_bloop") == Some(0);
    LeafAt2(WithBloopers(c, b), "bloopers", "main_bloop", b, b.fields[0].1);
  }

  lemma MainBloops(target: Value)
    ensures Compares(D1, ["bloopers", "main_bloop"], target, Str("256") == target)
    ensures Compares(D2, ["bloopers", "main_bloop"], target, Str("255") == target)
    ensures Compares(D4, ["bloopers", "main_bloop"], target, Str("254") == target)
  {
    assert |"name"| != |"bloopers"| && |"entry_count"| != |"bloopers"| && |"rosters"| != |"bloopers"|;
    BloopersIsFourth(C1, B1);
    BloopersIsFourth(C2, B2);
    BloopersIsFourth(C4, B4);
  }

  // Path and target are pinned by the requires so the solver does not unfold the filter on literals.
  lemma MainBloopIs256(path: string, target: Value)
    requires path == "contests.bloopers.main_bloop" && target == Str("256")
    ensures Split(path, MaskDelimiter) == ["contests"] + ["bloopers", "main_bloop"]
    ensures Compares(D1, ["bloopers", "main_bloop"], target, true)
    ensures Compares(D2, ["bloopers", "main_bloop"], target, false)
    ensures Compares(D4, ["bloopers", "main_bloop"], target, false)
  {
    SplitMainBloop(path);
    assert ["contests", "bloopers", "main_bloop"] == ["contests"] + ["bloopers", "main_bloop"];
    MainBloops(target);
    assert "255"[2] != "256"[2] && "254"[2] != "256"[2];
  }

  /** Filtering two levels below the list keeps the matching contest. */
  // Path and target are pinned by the requires so the solver does not unfold the filter on literals.
  lemma FilterTwoLevelsDown(path: string, target: Value)
    requires path == "contests.bloopers.main_bloop" && target == Str("256")
    ensures FilterOn(ResultFilter(TwoLevel, '.'), path, target) ==
            Encoded(Obj([("contests", Arr([D1]))]))
  {
    MainBloopIs256(path, target);
    KeepFirstOfThree(D1, D2, D4);
    FilterThree("contests", D1, D2, D4, path, ["bloopers", "main_bloop"], target, true, false, false, [D1]);
  }

  lemma TwoLevelCounts(target: Value)
    ensures Compares(D1, ["entry_count"], target, Num(23) == target)
    ensures Compares(D2, ["entry_count"], target, Num(24) == target)
    ensures Compares(D4, ["entry_count"], target, Num(24) == target)
  {
    assert D1.fields[..3] == C1.fields && D2.fields[..3] == C2.fields && D4.fields[..3] == C4.fields;
    EntryCountIsSecond(D1, 23);
    EntryCountIsSecond(D2, 24);
    EntryCountIsSecond(D4, 24);
  }

  // Path and target are pinned by the requires so the solver does not unfold the filter on literals.
  lemma TwoLevelCountIs24(path: string, target: Value)
    requires path == "contests.entry_count" && target == Num(24)
    ensures Split(path, MaskDelimiter) == ["contests"] + ["entry_count"]
    ensures Compares(D1, ["entry_count"], target, false)
    ensures Compares(D2, ["entry_count"], target, true) && Compares(D4, ["entry_count"], target, true)
  {
    assert "contests." + "entry_count" == "contests.entry_count";
    SplitContests(path, "entry_count");
    TwoLevelCounts(target);
  }

  /** The same count filter on the larger contests keeps both of them
      whole, nested objects included. */
  // Path and target are pinned by the requires so the solver does not unfold the filter on literals.
  lemma FilterTwoLevelsMatchesTwo(path: string, target: Value)
    requires path == "contests.entry_count" && target == Num(24)
    ensures FilterOn(ResultFilter(TwoLevel, '.'), path, target) ==
            Encoded(Obj([("contests", Arr([D2, D4]))]))
  {
    TwoLevelCountIs24(path, target);
    KeepLastTwoOfThree(D1, D2, D4);
    FilterThree("contests", D1, D2, D4, path, ["entry_count"], target, false, true, true, [D2, D4]);
  }

  // ---------------------------------------------------------------------
  // A path through a second array.

  const Inner: Value := Obj([("C", Num(1))])
  const Outer: Value := Obj([("B", Arr([Inner]))])
  const Nested: Value := Obj([("A", Arr([Outer]))])

  lemma SplitABC()
    ensures Split("A.B.C", '.') == ["A", "B", "C"]
  {
    var segs := ["A", "B", "C"];
    assert Join(segs[2..], '.') == "C";
    assert Join(segs[1..], '.') == "B.C";
    assert Join(segs, '.') == "A.B.C";
    SplitJoin(segs, '.');
  }

  lemma NestedSteps(target: Value)
    ensures MaskStep(target, Inner, "C") == Bool(Num(1) == target)
    ensures MaskStep(target, Outer, "B") == Arr([Inner])
    ensures MaskStep(target, Nested, "A") == Arr([Outer])
  {
    assert Lookup(Inner.fields, "C") == Some(Num(1));
    assert Lookup(Outer.fields, "B") == Some(Arr([Inner]));
    assert Lookup(Nested.fields, "A") == Some(Arr([Outer]));
  }

  /** A one-segment fold on an object whose key holds a scalar. */
  lemma LeafFold(target: Value, x: Value, k: string, leaf: Value)
    requires x.Obj? && Lookup(x.fields, k) == Some(leaf) && !IsComposite(leaf)
    ensures Reduce(target, x, [k], 0) == (Bool(leaf == target), [k])
  {
    var b := Bool(leaf == target);
    assert MaskStep(target, x, k) == b;
    assert Lfunc(target, x, [k][0], [k]) == (b, [k]);
    ReduceStep(target, x, [k], 0, b, [k]);
    ReduceDone(target, b, [k], 1);
  }

  lemma NestedInnerStep(target: Value)
    ensures Reduce(target, Inner, ["C"], 0) == (Bool(Num(1) == target), ["C"])
  {
    assert Lookup(Inner.fields, "C") == Some(Num(1));
    LeafFold(target, Inner, "C", Num(1));
  }

  /** One unfolding of the loop over a one-element list. */
  lemma ReduceEachOne(target: Value, x: Value, crit: seq<string>)
    ensures ReduceEach(target, [x], crit) == ([Reduce(target, x, crit, 0).0], Reduce(target, x, crit, 0).1)
  {
    var (first, crit1) := Reduce(target, x, crit, 0);
    assert [x][0] == x && [x][1..] == [];
    assert ReduceEach(target, [], crit1) == ([], crit1);
    assert [first] + [] == [first];
  }

  /** The innermost fold: the element of B's array compared on C. */
  lemma NestedInnerFold(target: Value)
    ensures ReduceEach(target, [Inner], ["C"]) == ([Bool(Num(1) == target)], ["C"])
  {
    NestedInnerStep(target);
    ReduceEachOne(target, Inner, ["C"]);
  }

  /** B's array is met with the list at ["B", "C"]: it is popped a second
      time before the fold over the array. */
  lemma NestedPop(target: Value)
    ensures Lfunc(target, Arr([Inner]), "C", ["B", "C"]) == (Arr([Bool(Num(1) == target)]), ["C"])
  {
    NestedInnerFold(target);
    assert ["B", "C"][1..] == ["C"];
  }

  lemma NestedMiddleRest(target: Value)
    ensures Reduce(target, Arr([Inner]), ["B", "C"], 1) == (Arr([Bool(Num(1) == target)]), ["C"])
  {
    var c := ["B", "C"];
    var m := Arr([Bool(Num(1) == target)]);
    NestedPop(target);
    assert c[1] == "C";
    ReduceStep(target, Arr([Inner]), c, 1, m, ["C"]);
    ReduceDone(target, m, ["C"], 2);
  }

  lemma NestedMiddleLeaf(target: Value)
    ensures Lfunc(target, Outer, "B", ["B", "C"]) == (Arr([Inner]), ["B", "C"])
  {
    NestedSteps(target);
  }

  lemma NestedMiddleStep(target: Value)
    ensures Reduce(target, Outer, ["B", "C"], 0) == (Arr([Bool(Num(1) == target)]), ["C"])
  {
    NestedMiddleLeaf(target);
    NestedMiddleRest(target);
    assert ["B", "C"][0] == "B";
    ReduceStep(target, Outer, ["B", "C"], 0, Arr([Inner]), ["B", "C"]);
  }

  /** The middle fold: the element of A's array steps into B's array. */
  lemma NestedMiddleFold(target: Value)
    ensures ReduceEach(target, [Outer], ["B", "C"]) == ([Arr([Bool(Num(1) == target)])], ["C"])
  {
    NestedMiddleStep(target);
    ReduceEachOne(target, Outer, ["B", "C"]);
  }

  lemma NestedOuterPop(target: Value)
    ensures Lfunc(target, Arr([Outer]), "B", ["A", "B", "C"]) == (Arr([Arr([Bool(Num(1) == target)])]), ["C"])
  {
    NestedMiddleFold(target);
    assert ["A", "B", "C"][1..] == ["B", "C"];
    LfuncOnList(target, [Outer], "B", ["A", "B", "C"]);
  }

  lemma NestedOuterRest(target: Value)
    ensures Reduce(target, Arr([Outer]), ["A", "B", "C"], 1) == (Arr([Arr([Bool(Num(1) == target)])]), ["C"])
  {
    var c := ["A", "B", "C"];
    var m := Arr([Arr([Bool(Num(1) == target)])]);
    NestedOuterPop(target);
    assert c[1] == "B";
    ReduceStep(target, Arr([Outer]), c, 1, m, ["C"]);
    ReduceDone(target, m, ["C"], 2);
  }

  lemma NestedOuterLeaf(target: Value)
    ensures Lfunc(target, Nested, "A", ["A", "B", "C"]) == (Arr([Outer]), ["A", "B", "C"])
  {
    NestedSteps(target);
  }

  /** The literal mask on a path through a second array, when the outer
      array has one element: that entry comes out as a list of comparisons
      one level deeper. With more outer elements only the first entry
      does (see Nested2Mask). */
  lemma NestedMask(target: Value)
    ensures CreateFilter("A.B.C", target, Nested).truths == Arr([Arr([Bool(Num(1) == target)])])
  {
    SplitABC();
    NestedOuterLeaf(target);
    NestedOuterRest(target);
    assert ["A", "B", "C"][0] == "A";
    ReduceStep(target, Nested, ["A", "B", "C"], 0, Arr([Outer]), ["A", "B", "C"]);
  }

  lemma NestedFirstList()
    ensures FirstList(["A", "B", "C"], Nested) == ListAt(["A"], [Outer])
  {
    assert Lookup(Nested.fields, "A") == Some(Arr([Outer]));
    assert ["A", "B", "C"][1..] == ["B", "C"];
    assert FirstList(["B", "C"], Arr([Outer])) == ListAt([], [Outer]);
  }

  lemma NestedFlags(target: Value)
    ensures Flags(Arr([Arr([Bool(Num(1) == target)])])) == Some([true])
  {
    var ts := [Arr([Bool(Num(1) == target)])];
    var fl := Flags(Arr(ts)).value;
    assert |fl| == 1 && fl[0] == Truthy(ts[0]);
    assert Truthy(ts[0]);
    assert fl == [true];
  }

  lemma NestedWriteBack()
    ensures UpdateAt(Nested, ["A"], Arr([Outer])) == Nested
  {
    SingleKeyWriteBack("A", Arr([Outer]), Arr([Outer]));
  }

  /** Any one-entry mask whose entry is truthy keeps the one element. */
  lemma NestedApply(m: Value)
    requires m.Arr? && |m.elems| == 1 && Flags(m) == Some([true])
    ensures ApplyFilter(FilterMask(["A", "B", "C"], m), Nested) == Filtered(Nested)
  {
    NestedFirstList();
    NestedWriteBack();
    assert Consistent([Outer], [true]);
    assert Keep([Outer], [true]) == [Outer];
  }

  /** With one outer element, whose entry is a non-empty and so truthy
      list, the filter removes nothing, whether or not the innermost value
      matches. With two outer elements the second is always removed (see
      Nested2FilterDropsSecond). */
  lemma NestedFilterKeepsAll(target: Value)
    ensures FilterOn(ResultFilter(Nested, '.'), "A.B.C", target) == Encoded(Nested)
  {
    SplitABC();
    NestedMask(target);
    NestedFlags(target);
    var m := Arr([Arr([Bool(Num(1) == target)])]);
    NestedApply(m);
    assert CreateFilter("A.B.C", target, Nested) == FilterMask(["A", "B", "C"], m);
  }

  // ---------------------------------------------------------------------
  // A path through a second array, with two outer elements.

  const Inner2: Value := Obj([("C", Num(2))])
  const Outer2: Value := Obj([("B", Arr([Inner2]))])
  const Nested2: Value := Obj([("A", Arr([Outer, Outer2]))])

  /** The second outer element is folded with the shared list as the first
      element's fold left it, ["C"]: C is looked up directly in the
      element, one level too shallow, and is missing. */
  lemma Nested2SecondFold(target: Value)
    ensures Reduce(target, Outer2, ["C"], 0) == (Bool(false), ["C"])
  {
    assert Lookup(Outer2.fields, "C") == None by { assert Outer2.fields[0].0 != "C"; }
    MissingKeyFold(target, Outer2, "C");
  }

  /** A one-segment fold on an object that lacks the key. */
  lemma MissingKeyFold(target: Value, x: Value, k: string)
    requires x.Obj? && Lookup(x.fields, k) == None
    ensures Reduce(target, x, [k], 0) == (Bool(false), [k])
  {
    assert MaskStep(target, x, k) == Bool(false);
    assert Lfunc(target, x, [k][0], [k]) == (Bool(false), [k]);
    ReduceStep(target, x, [k], 0, Bool(false), [k]);
    ReduceDone(target, Bool(false), [k], 1);
  }

  lemma Nested2SecondOnly(target: Value)
    ensures ReduceEach(target, [Outer2], ["C"]) == ([Bool(false)], ["C"])
  {
    Nested2SecondFold(target);
    ReduceEachOne(target, Outer2, ["C"]);
  }

  lemma Nested2MiddleFold(target: Value)
    ensures ReduceEach(target, [Outer, Outer2], ["B", "C"]) == ([Arr([Bool(Num(1) == target)]), Bool(false)], ["C"])
  {
    var first := Arr([Bool(Num(1) == target)]);
    NestedMiddleStep(target);
    Nested2SecondOnly(target);
    assert [Outer, Outer2][1..] == [Outer2];
    ReduceEachStep(target, [Outer, Outer2], ["B", "C"], first, ["C"], [Bool(false)], ["C"]);
    PairDisplay(first, Bool(false));
  }

  lemma PairDisplay<T>(a: T, b: T)
    ensures [a] + [b] == [a, b]
  {
  }

  lemma Nested2OuterRest(target: Value)
    ensures Reduce(target, Arr([Outer, Outer2]), ["A", "B", "C"], 1) ==
              (Arr([Arr([Bool(Num(1) == target)]), Bool(false)]), ["C"])
  {
    var c := ["A", "B", "C"];
    var m := Arr([Arr([Bool(Num(1) == target)]), Bool(false)]);
    assert Lfunc(target, Arr([Outer, Outer2]), c[1], c) == (m, ["C"]) by {
      Nested2MiddleFold(target);
      assert c[1..] == ["B", "C"];
      LfuncOnList(target, [Outer, Outer2], c[1], c);
    }
    ReduceStep(target, Arr([Outer, Outer2]), c, 1, m, ["C"]);
    ReduceDone(target, m, ["C"], 2);
  }

  /** The literal mask when the outer array has two elements: the first
      entry is the nested list of comparisons, but the second is False,
      because the first element's fold popped B from the shared list. */
  lemma Nested2Mask(target: Value)
    ensures CreateFilter("A.B.C", target, Nested2).truths == Arr([Arr([Bool(Num(1) == target)]), Bool(false)])
  {
    var c := ["A", "B", "C"];
    SplitABC();
    assert Lookup(Nested2.fields, "A") == Some(Arr([Outer, Outer2]));
    assert Lfunc(target, Nested2, c[0], c) == (Arr([Outer, Outer2]), c);
    ReduceStep(target, Nested2, c, 0, Arr([Outer, Outer2]), c);
    Nested2OuterRest(target);
  }

  lemma Nested2Flags(target: Value)
    ensures Flags(Arr([Arr([Bool(Num(1) == target)]), Bool(false)])) == Some([true, false])
  {
    var ts := [Arr([Bool(Num(1) == target)]), Bool(false)];
    var fl := Flags(Arr(ts)).value;
    assert |fl| == 2 && fl[0] == Truthy(ts[0]) && fl[1] == Truthy(ts[1]);
    assert fl == [true, false];
  }

  lemma Nested2Keep()
    ensures Consistent([Outer, Outer2], [true, false])
    ensures Keep([Outer, Outer2], [true, false]) == [Outer]
  {
    assert Inner != Inner2 by { assert Inner.fields[0].1 != Inner2.fields[0].1; }
    assert Outer != Outer2 by { assert Outer.fields[0].1.elems[0] != Outer2.fields[0].1.elems[0]; }
    assert [Outer, Outer2][..1] == [Outer] && [true, false][..1] == [true];
    assert [Outer][..0] == [] && [true][..0] == [];
  }

  /** With two outer elements the filter keeps the first and drops the
      second, whatever the target: with target 2 the only element whose
      innermost value matches is the one removed. */
  lemma Nested2FilterDropsSecond(target: Value)
    ensures FilterOn(ResultFilter(Nested2, '.'), "A.B.C", target) == Encoded(Nested)
  {
    var m := Arr([Arr([Bool(Num(1) == target)]), Bool(false)]);
    Nested2Mask(target);
    Nested2Flags(target);
    Nested2Keep();
    assert Lookup(Nested2.fields, "A") == Some(Arr([Outer, Outer2]));
    SingleKeyWriteBack("A", Arr([Outer, Outer2]), Arr([Outer]));
    SplitABC();
    FilterSecondOfTwo(Nested2, "A.B.C", target, ["A", "B", "C"], m, Outer, Outer2);
  }

  /** The filter on a root object whose first key holds a two-element
      list, when the mask flags only the first element. */
  lemma FilterSecondOfTwo(doc: Value, path: string, target: Value, c: seq<string>, m: Value, x: Value, y: Value)
    requires doc.Obj? && |c| >= 2 && Split(path, MaskDelimiter) == c
    requires Lookup(doc.fields, c[0]) == Some(Arr([x, y]))
    requires CreateFilter(path, target, doc).truths == m && m.Arr? && |m.elems| == 2
    requires Flags(m) == Some([true, false])
    requires Consistent([x, y], [true, false]) && Keep([x, y], [true, false]) == [x]
    ensures FilterOn(ResultFilter(doc, '.'), path, target) == Encoded(UpdateAt(doc, [c[0]], Arr([x])))
  {
    var rf := ResultFilter(doc, '.');
    var mask := CreateFilter(path, target, doc);
    assert ApplyFilter(mask, doc) == Filtered(UpdateAt(doc, [c[0]], Arr([x]))) by {
      assert mask == FilterMask(c, m);
      FirstListUnderRoot(c, doc.fields, [x, y]);
      FilterWithFlags(rf, mask, [c[0]], [x, y], [true, false]);
    }
  }
}
